=== FILE: README.md ===
# Interactive dashboard core, modelled in Dafny

This project models the logic behind a React/Next.js CRM dashboard: widgets arranged on a
drag-and-drop grid, with state kept in a zustand store. Everything is written as pure Dafny
functions over immutable datatypes. The modules are:

- `Store` (`store.dfy`). The widget store (`app/store/dashboardStore.js`): the five default
  widgets and the five state transformers `updateLayouts`, `toggleWidgetVisibility`,
  `addWidget`, `updateWidget` and `removeWidget`. The `y: Infinity` of a new widget is the
  `Bottom` case of `datatype Y = Row(nat) | Bottom`. The store's first `layouts` value,
  `{lg: defaultWidgets}`, holds widget records rather than layout entries, so the layouts
  field is `Initial(widgets)` until the first `updateLayouts` sets it to `Committed(layouts)`.
- `Grid` (`grid.dfy`). The grid component (`app/components/DashboardGrid.jsx`):
  - `generateLayouts` with its `minW || 2` / `minH || 1` defaults;
  - the `onLayoutChange` wiring, which commits `generateLayouts()` instead of the layout the
    grid reports;
  - the `renderWidget` dispatch and the visible-children list.
- `Header` (`header.dfy`). The add-widget form (`app/components/DashboardHeader.jsx`): three
  pieces of state, JavaScript's `trim`, and the blank-title guard of `handleAddWidget`.
- `Chart` (`chart.dfy`). The chart widget (`app/components/widgets/ChartWidget.jsx`):
  - the title-to-dataset switch;
  - bar, line and pie series and labels with their `||` defaults;
  - the "No data available" guard;
  - which renderer runs, the selector value and `handleChartTypeChange`.
- `Table` (`table.dfy`). The table widget (`app/components/widgets/TableWidget.jsx`): the
  status badge colour and the CSV export. A reader for the record syntax of RFC 4180
  section 2 checks what the export produces.
- `MockData` (`mock_data.dfy`). The mock data service (`app/services/mockData.js`): the five
  static datasets and the `fetchData` lookup, without its delay.
- `Notifications` (`notifications.dfy`). The notification context
  (`app/contexts/NotificationContext.jsx`): `addNotification` with its defaults,
  `removeNotification`, and the container's per-type style.
- Helpers:
  - `Wrappers`: `Option`.
  - `Seqs`: a generic `filter` and its laws.
  - `Decimal`: printing and parsing of naturals, for `widget${n}` ids and `${val}`.

JavaScript semantics the model spells out:

- `||` tests truthiness (`0`, `""` and `false` are falsy).
- `find` returns the first match.
- `{...w, ...props}` overwrites exactly the properties present in the patch.
- `trim` strips the ECMAScript white-space and line-terminator characters.

Clock and timer values become parameters. The notification id that the source takes from
`Date.now()` is an argument, and the auto-dismiss delay is returned rather than scheduled.

Facts about the code that shape the model:

- The store's `addWidget` itself has no blank-title check; only the header form guards it
  (`app/components/DashboardHeader.jsx:16`).
- Ids are derived from the list length (`app/store/dashboardStore.js:109`), so they are not
  guaranteed unique (see Findings).
- The grid's `onLayoutChange` commits the store's own `generateLayouts()` rather than the
  layout the grid reports (`app/components/DashboardGrid.jsx:75`).
- No manual expand/restore or resize-stop push-down exists in the code.

## Model

| member | source | states |
|---|---|---|
| Store.DefaultsWellFormed | app/store/dashboardStore.js:4-68 | The five default widgets have pairwise distinct ids, and each satisfies w >= minW and h >= minH. |
| Store.FindFirst | app/store/dashboardStore.js:79 | `lg.find(item => item.i === id)`: the position of the first entry naming the id, or none when no entry does. |
| Store.UpdateLayouts | app/store/dashboardStore.js:77-96 | Keeps the list length and order. Each widget takes x, y, w, h from the first `lg` entry with its id. Every other field is kept, an unmatched widget is unchanged, and `layouts` becomes the new layouts object wholesale. |
| Store.UpdateLayoutsWithoutLg | app/store/dashboardStore.js:79 | With no `lg` list (the `?.` short-circuit), no widget changes. |
| Store.UpdateLayoutsDoesNotClamp | app/store/dashboardStore.js:80-88 | Geometry is copied verbatim: a 1x1 entry for `widget1` leaves it below its minW and minH of 2. |
| Store.ToggleWidgetVisibility | app/store/dashboardStore.js:99-105 | `visible` flips on exactly the widgets with the id; every other field and widget, and the layouts, are unchanged. |
| Store.ToggleTwice | app/store/dashboardStore.js:99-105 | Toggling the same id twice restores the store. |
| Store.ToggleAbsent | app/store/dashboardStore.js:99-105 | Toggling an id no widget carries changes nothing. |
| Store.AddWidget | app/store/dashboardStore.js:108-133 | Appends exactly one widget and keeps the earlier ones. The new widget has id `widget<n+1>`, the given type and title, is visible, sits at x 0 and the bottom, and is 6x2 with minimums 2x2. Its chart type is `bar` exactly when the type is `chart`, and null otherwise. |
| Store.MergeLaws | app/store/dashboardStore.js:138 | The spread merge: the empty patch is neutral, merging p then q is merging their union with q winning, and merging the same patch twice is merging it once. |
| Store.UpdateWidget | app/store/dashboardStore.js:136-142 | Widgets with the id become their spread-merge with the patch; all other widgets and the layouts are unchanged. |
| Store.UpdateAbsent | app/store/dashboardStore.js:136-142 | Updating an id no widget carries changes nothing. |
| Store.UpdateTwice | app/store/dashboardStore.js:136-142 | Repeating an update changes nothing further, whatever the patch. |
| Store.RemoveWidget | app/store/dashboardStore.js:145-147 | A widget survives exactly when it was present and does not carry the id; the layouts are unchanged. |
| Store.RemoveKeepsOrder | app/store/dashboardStore.js:146 | Removal distributes over concatenation and decides each widget on its own, so the survivors keep their order. |
| Store.RemoveIdempotent | app/store/dashboardStore.js:145-147 | Removing twice is removing once, and removing an absent id changes nothing. |
| Store.AddThenRemove | app/store/dashboardStore.js:108-147 | If the generated id is not already in use, adding a widget and removing that id restores the list. |
| Store.RemoveSoleCarrier | app/store/dashboardStore.js:146 | Removing an id that exactly one widget carries deletes exactly that widget. |
| Store.DuplicateIdAfterRemove | app/store/dashboardStore.js:109 | Take a store of n widgets with distinct ids whose last widget is `widget<n>`. Removing any other widget and then adding one appends a second `widget<n>` right after the first, and no earlier widget has that id. |
| Store.DefaultsReuseWidget5 | app/store/dashboardStore.js:108-133 | From the defaults, removing `widget2` and adding a table leaves the old `widget5` fourth and puts a new `widget5` fifth. |
| Store.SharedIdActsOnBoth | app/store/dashboardStore.js:99-147 | Two widgets sharing an id are both toggled by one toggle and both dropped by one removal. |
| Store.AddWidgetFresh | app/store/dashboardStore.js:108-133 | Corrected add: the same new widget as `addWidget`, but with an id no live widget carries. |
| Store.AddWidgetFreshKeepsIdsDistinct | app/store/dashboardStore.js:109 | The corrected add keeps ids pairwise distinct. |
| Store.AddWidgetFreshAgrees | app/store/dashboardStore.js:109 | While no id suffix exceeds the list length, the corrected add is exactly `addWidget`. |
| Grid.Project | app/components/DashboardGrid.jsx:32-40 | An entry copies the id as `i` and x, y, w, h unchanged. A zero (falsy) minW becomes 2 and a zero minH becomes 1; otherwise they are copied. |
| Grid.LayoutEntries | app/components/DashboardGrid.jsx:30-42 | The `lg` list: characterised by `Grid.LayoutEntriesMembers`, `Grid.LayoutEntriesInStoreOrder` and `Grid.LayoutEntriesCount` (one entry per visible widget, in store order, each the widget's projection). |
| Grid.GenerateLayouts | app/components/DashboardGrid.jsx:27-45 | `generateLayouts()`: a layouts object whose `lg` is `Grid.LayoutEntries` of the widgets; committing it is a fixpoint (`Grid.LayoutChangeIsFixpoint`). |
| Grid.LayoutEntriesMembers | app/components/DashboardGrid.jsx:30-42 | Every visible widget's projection is an entry, and every entry is the projection of some visible widget. |
| Grid.LayoutEntriesInStoreOrder | app/components/DashboardGrid.jsx:30-42 | Entries of a concatenation are the concatenated entries, and a single widget yields one entry if visible and none if hidden; so entries follow store order. |
| Grid.LayoutEntriesCount | app/components/DashboardGrid.jsx:30-42 | There are as many entries as visible widgets, and every entry's minW and minH are positive. |
| Grid.HandleLayoutChange | app/components/DashboardGrid.jsx:75 | Whatever layout the grid reports, the store commits `generateLayouts()` of its own widgets. |
| Grid.LayoutChangeIsFixpoint | app/components/DashboardGrid.jsx:47-75 | With distinct ids, a layout change leaves every widget exactly as it was, `Bottom` included. |
| Grid.LayoutChangeMergesSharedId | app/components/DashboardGrid.jsx:75 | A widget sharing its id with an earlier visible widget takes that widget's geometry on the next layout change. |
| Grid.DefaultsDuplicateCollapses | app/components/DashboardGrid.jsx:75 | From the defaults, after removing `widget2` and adding a widget, the new `widget5` leaves the bottom. At the next layout change it moves onto the old one (x 8, row 2, 4x2). |
| Grid.RenderWidget | app/components/DashboardGrid.jsx:52-65 | Nothing is rendered exactly when the widget is hidden. A visible table, chart or stats widget renders the table, chart or stats view of that widget, and the placeholder is rendered exactly when the type is none of these. |
| Grid.Children | app/components/DashboardGrid.jsx:85-91 | The visible widgets in store order, each keyed by its id and rendered; `Grid.ChildrenMatchLayout` relates them to the layout entries. |
| Grid.ChildrenMatchLayout | app/components/DashboardGrid.jsx:85-91 | The children are keyed by the same ids, in the same order, as the layout entries, and each renders a view. |
| Header.TrimStart | app/components/DashboardHeader.jsx:16 | The result is a suffix of the input, everything removed is white space, and the result does not start with white space. |
| Header.TrimEnd | app/components/DashboardHeader.jsx:16 | The result is a prefix of the input, everything removed is white space, and the result does not end with white space. |
| Header.Trim | app/components/DashboardHeader.jsx:16 | `s.trim()`: `Header.TrimStart` then `Header.TrimEnd`; `Header.TrimEmptyIffBlank` states when it is empty. |
| Header.TrimEmptyIffBlank | app/components/DashboardHeader.jsx:16 | `title.trim()` is empty (falsy) exactly when the title is empty or all white space. |
| Header.HandleAddWidget | app/components/DashboardHeader.jsx:15-21 | A blank title changes neither the form nor the store. A non-blank title adds a widget of the selected type with the untrimmed title, then clears the title and closes the menu. The store grows exactly when the title is non-blank. |
| Header.Step | app/components/DashboardHeader.jsx:33-80 | One form event: the Add Widget button flips the menu; while the menu is open (line 41) typing sets the title, the select sets the type, Cancel closes the menu, Add runs `Header.HandleAddWidget`; `Header.StepFrames` and `Header.FirstAddIsTable` state its effects. |
| Header.StepFrames | app/components/DashboardHeader.jsx:33-80 | Only Add with a non-blank title on the open menu touches the store. While the menu is closed (line 41) nothing but the Add Widget button has an effect. The Add Widget button twice restores the form. Cancel closes the menu and keeps the title and type. |
| Header.FirstAddIsTable | app/components/DashboardHeader.jsx:9-21 | From the initial form (closed, empty title, `table`), opening it, typing a title and pressing Add adds a table and returns to the initial form. |
| Notifications.AddNotification | app/contexts/NotificationContext.jsx:22-38 | Appends exactly `{id, type, message}` and keeps the earlier notifications. It returns the id. The type defaults to `info` and the duration to 5000. A removal is scheduled exactly when the duration is not 0, and after that duration. |
| Notifications.RemoveNotification | app/contexts/NotificationContext.jsx:42-46 | A notification survives exactly when it was present and does not carry the id. |
| Notifications.RemoveNotificationLaws | app/contexts/NotificationContext.jsx:42-46 | Removal distributes over concatenation (order is kept), is idempotent, and ignores an id nobody carries. |
| Notifications.AddThenRemove | app/contexts/NotificationContext.jsx:22-46 | Removing by the returned id restores a list that did not use the id. |
| Notifications.SameMillisecondRemovesBoth | app/contexts/NotificationContext.jsx:24-44 | Two notifications added with the same clock id are both dropped by one removal. |
| Notifications.StyleOf | app/contexts/NotificationContext.jsx:74-79 | Green exactly for `success`, red exactly for `error`, blue otherwise. |
| Notifications.Container | app/contexts/NotificationContext.jsx:67-80 | Nothing is rendered exactly when the list is empty. Otherwise there is one banner per notification, keyed by its id, carrying its message, and styled by its type. |
| Notifications.UntypedIsInfo | app/contexts/NotificationContext.jsx:23 | A notification added without a type shows the information style. |
| Chart.DatasetFor | app/components/widgets/ChartWidget.jsx:22-34 | The key is revenue, sales or distribution. It is `sales` exactly for `Sales Trends` and `distribution` exactly for `Customer Distribution`; every other title gets `revenue`. |
| Chart.LoadedData | app/components/widgets/ChartWidget.jsx:17-44 | Every title loads a non-empty dataset. |
| MockData.Get | app/components/widgets/ChartWidget.jsx:72 | Property access `item[key]`: present exactly when some field has the key, and then that field's value. |
| MockData.OrDefault | app/components/widgets/ChartWidget.jsx:72 | `item.key \|\| default`: the value when present and truthy, the default otherwise. |
| Chart.Column | app/components/widgets/ChartWidget.jsx:105-108 | One value per record: the record's value under the key when present and truthy, the default otherwise. |
| Chart.ColumnHasNoGaps | app/components/widgets/ChartWidget.jsx:72 | A column holds no falsy value other than its default. |
| Chart.BarChart | app/components/widgets/ChartWidget.jsx:46-108 | Empty data gives the placeholder. Otherwise the month categories (default `''`) and revenue series (default 0) have one entry per record. |
| Chart.LineChart | app/components/widgets/ChartWidget.jsx:115-185 | Empty data gives the placeholder. Otherwise the sales series (default 0) has one entry per record. |
| Chart.PieChart | app/components/widgets/ChartWidget.jsx:192-236 | Empty data gives the placeholder. Otherwise the category labels (default `Unknown`) and values (default 0) have one entry per record each. |
| Chart.RenderBody | app/components/widgets/ChartWidget.jsx:264-275 | A spinner exactly while loading. Otherwise at most one chart, exactly one when the chart type is bar, line or pie, and that one is the bar, line or pie chart of the data respectively. |
| Chart.SelectorValue | app/components/widgets/ChartWidget.jsx:253 | `chartType \|\| 'bar'`: the chart type when set and non-empty, `bar` otherwise. |
| Chart.MissingChartTypeShowsBarDrawsNothing | app/components/widgets/ChartWidget.jsx:253-273 | Without a chart type the selector shows `bar` yet nothing is drawn. |
| Chart.LoadedChartHasData | app/components/widgets/ChartWidget.jsx:22-50 | Once loaded, a chart never draws the "No data available" placeholder. |
| Chart.DefaultChartsData | app/components/widgets/ChartWidget.jsx:22-34 | The default chart titles draw their datasets: bars labelled Jan to Jun, 11 sales points, and the labels New, Returning, Regular. |
| Chart.ChangeChartType | app/components/widgets/ChartWidget.jsx:243-245 | Only the widgets with this widget's id change, and only their chart type, which becomes the selected value. |
| Chart.ChangeChartTypeSelects | app/components/widgets/ChartWidget.jsx:243-273 | After choosing bar, line or pie, the selector shows that choice and exactly one chart is drawn. |
| Table.StatusColorOf | app/components/widgets/TableWidget.jsx:34-45 | Green exactly for Active, yellow exactly for Pending, gray for Inactive and for everything else. |
| Table.HeadersPlain | app/components/widgets/TableWidget.jsx:22-63 | No column header holds a comma, a quote or a line break. |
| Table.HeaderLineFields | app/components/widgets/TableWidget.jsx:94-96 | The header line, written unquoted, reads back as exactly the five headers Name, Email, Status, Last Order, Total Spent. |
| Table.HeaderLineOneLine | app/components/widgets/TableWidget.jsx:94-96 | The header line holds no line break. |
| Table.HeaderLine | app/components/widgets/TableWidget.jsx:94-96 | `headers.join(',')`: reads back as the five headers (`Table.HeaderLineFields`) and is one line (`Table.HeaderLineOneLine`). |
| Table.RowAsWritten | app/components/widgets/TableWidget.jsx:97-101 | One data line as written: every record value quoted without escaping, joined by commas; `Table.RowFields` and `Table.QuoteInsideBreaksRow` state what it reads back as. |
| Table.ExportCsv | app/components/widgets/TableWidget.jsx:110 | The file name is the widget title followed by `.csv`. |
| Table.ExportLines | app/components/widgets/TableWidget.jsx:95-104 | When no value holds a line break, the CSV text splits on `\n` into `data.length + 1` lines: the header line, then each record's line in order. |
| Table.RowFields | app/components/widgets/TableWidget.jsx:97-101 | A data line of quote-free values reads back as one field per record value, in field order. |
| Table.CustomerRowFields | app/components/widgets/TableWidget.jsx:97-101 | A customer line reads back as six fields, the printed id first. |
| Table.CustomerRowsHaveSixFields | app/components/widgets/TableWidget.jsx:97-101 | Every customer record carries six values, `id` first, and the first customer's line reads back as six fields under a five-field header. |
| Table.QuoteInsideBreaksRow | app/components/widgets/TableWidget.jsx:99 | A first value holding a quote followed by ordinary text makes its line unreadable as a record. |
| Table.UnescapedQuoteBreaksRow | app/components/widgets/TableWidget.jsx:99 | The value `6" display` breaks its line as written, and reads back once escaped. |
| Table.EscapedRowRoundTrip | app/components/widgets/TableWidget.jsx:97-101 | Corrected field writing: fields quoted with embedded quotes doubled read back exactly, whatever text they hold. |
| Table.AlignedExportLines | app/components/widgets/TableWidget.jsx:92-104 | Corrected export: when no value holds a line break, the text splits into `data.length + 1` lines, the header line and then one line per record that reads back as exactly its five column values. |
| Table.AlignedRowHasHeaderFields | app/components/widgets/TableWidget.jsx:94-101 | Corrected data line: the five column values, escaped, read back exactly, one field per header. |
| MockData.FetchData | app/services/mockData.js:55-73 | Each of the five keys returns its dataset. The result is non-empty exactly for those keys, and any other key gives `[]`. |
| MockData.FetchIgnoresFilters | app/services/mockData.js:55 | The `filters` argument never changes the result. |
| MockData.CustomerIds | app/services/mockData.js:4-12 | Seven customers whose ids are 1 to 7 in order, hence pairwise distinct. |
| MockData.RevenueMonths | app/services/mockData.js:15-22 | Six revenue entries, Jan to Jun in order. |
| MockData.DistributionIsWhole | app/services/mockData.js:40-44 | The distribution values total 100. |
| Decimal.NatToString | app/store/dashboardStore.js:109 | `${n}` for a natural: at least one character, all decimal digits, and no leading zero unless the number is 0, so an id is never printed as `widget05`. |
| Decimal.ParsePrinted | app/store/dashboardStore.js:109 | Reading back the digits printed for a natural gives that natural, which is what lets the corrected add read the number out of `widget<n>` ids. |

## Left out

- Store identity: `ChartWidget.jsx` (line 7) and `WidgetList.jsx` (line 4) take `useDashboardStore` from `app/contexts/DashboardStoreContext.jsx`, whose provider builds its store with `createDashboardStore(userId)` (lines 4, 15). `dashboardStore.js` does not export that factory; its only export is the module store `useDashboardStore` (line 70), which the header, grid and widget wrapper use. The model identifies the context store with the module store, so `Chart.ChangeChartType` writes to the store the grid reads; as written, the two stores would be distinct if the context store could be built at all.
- Persistence: zustand `persist` and localStorage (`app/store/dashboardStore.js:149-152`), and per-user store scoping. These are I/O; one store instance is modelled.
- Timers and async: the notification auto-dismiss `setTimeout` is represented only by the returned delay. The 500 ms fetch delay, the loading transitions and the refresh spinner are not modelled; `Chart.RenderBody` takes `loading` as an input.
- `Date.now()`: the notification id is a parameter.
- The line chart's date labels: they are built with JavaScript `Date` formatting.
- The CSV download: the `data:text/csv` prefix, `encodeURI` and the DOM link. These are I/O; `Table.ExportCsv` yields the file name and the CSV text.
- react-grid-layout internals: compaction, collision handling and breakpoint column squeezing are library behaviour. The grid is modelled only through the layout it reports to `onLayoutChange`, which the code ignores.
- Manual expand/restore/fullscreen resizing and resize-stop push-down: no such code exists. The fullscreen control in `WidgetWrapper.jsx` only flips a local CSS flag.
- UI rendering: JSX markup, CSS classes, ApexCharts option objects and the react-table sorting state. Views are abstract datatypes.
- `Tooltip.jsx`, `WidgetList.jsx`, `StatsWidget.jsx`, `StoreProvider.jsx`, `page.js`, `UserContext.jsx` and `DashboardStoreContext.jsx`: presentational code or provider wiring.
- Absent `minW`/`minH`: every store path sets them, so they are naturals and `0` is the only falsy case.
- Numbers as floats: `NaN`, fractions and `Infinity` are not values. `y: Infinity` is the `Bottom` case.
- A `duration` of `null`, `NaN` or `false`: only an omitted duration (`None`) and integers are modelled.
- Patch properties beyond the widget's own fields: `updateWidget` can only set widget fields.
- `chartData` being `undefined`: the chart data is always a list. A rejected fetch is not modelled, because `fetchData` never rejects.
- Store.UpdateLayouts: an `lg` entry that is not a valid layout item (missing x/y/w/h) is not representable.
- Table.CustomerRowsHaveSixFields: reads back only the first customer's line; for the other six it states the six-values-`id`-first shape.
- Table.ExportLines: assumes no value holds a line break. A value that does would split its record across lines.
- Table.AlignedExportLines: assumes no value holds a line break, for the same reason.
- Table.Display: integers are printed as plain digits whatever their size. JavaScript prints a number of magnitude 10^21 or more in exponent form (`1e+21`), and an integer beyond 2^53 is not an exact JavaScript number; the datasets hold neither.
- Table.RowAsWritten: takes the fields in sequence order. `Object.values` lists array-index keys first, in ascending order, and only then the others in insertion order, and a JavaScript object cannot repeat a key. The model therefore assumes records with distinct, non-index keys, as every dataset has; for such records sequence order is insertion order.
- Table.HeaderLineFields: states the header text through what it reads back as, not as a literal string.
- Store.AddWidgetFresh: only the fresh-id property is stated; which fresh number it picks is stated only through `Store.AddWidgetFreshAgrees`.

## Findings

| source | as written | input that shows it | evidently intended | confidence | as-written member | corrected member |
|---|---|---|---|---|---|---|
| app/store/dashboardStore.js:109 | The new id is `widget${length + 1}`, derived from the list length. | The five defaults: remove `widget2`, then add a widget. The list holds `widget5` twice. | Every widget has a distinct id, so that toggle, update and remove act on one widget. | not executed; high | Store.DuplicateIdAfterRemove | Store.AddWidgetFreshKeepsIdsDistinct |
| app/components/widgets/TableWidget.jsx:97-101 | Each data line writes `Object.values(row)`, which includes `id`. | Any customer: `"1","John Doe","john@example.com","Active","2025-06-01","$1,240"` has 6 fields under 5 headers. | One field per column, read through the columns' accessor keys. | not executed; high | Table.CustomerRowsHaveSixFields | Table.AlignedExportLines |
| app/components/widgets/TableWidget.jsx:99 | A field is written as `"${val}"` without doubling embedded quotes. | A value `6" display` is written as `"6" display"`, which no RFC 4180 reader accepts as a field. | Embedded quotes doubled, as in RFC 4180 section 2, rule 7. | not executed; medium (the sample data holds no quote) | Table.QuoteInsideBreaksRow | Table.EscapedRowRoundTrip |

=== FILE: chart.dfy ===
/** The chart widget: which dataset a chart loads, how the records become series and labels,
    which renderer runs, and the chart-type selector. */
module Chart {
  import opened Wrappers
  import opened MockData
  import opened Store

  /** The dataset key chosen from the widget title; any unknown title loads revenue. */
  function DatasetFor(title: string): (key: string)
    ensures key in {"revenue", "sales", "distribution"}
    ensures key == "sales" <==> title == "Sales Trends"
    ensures key == "distribution" <==> title == "Customer Distribution"
  {
    match title
    case "Monthly Revenue" => "revenue"
    case "Sales Trends" => "sales"
    case "Customer Distribution" => "distribution"
    case _ => "revenue"
  }

  /** The chart data once loading has finished (the fetch delay is not modelled). */
  function LoadedData(title: string): (data: seq<Record>)
    ensures |data| > 0
  {
    FetchData(DatasetFor(title), map[])
  }

  /** `data.map(item => item[key] || default)`. */
  function Column(data: seq<Record>, key: string, default: Value): (c: seq<Value>)
    ensures |c| == |data|
    ensures forall k :: 0 <= k < |data| ==>
              if Get(data[k], key).Some? && Truthy(Get(data[k], key).value)
              then c[k] == Get(data[k], key).value else c[k] == default
  {
    seq(|data|, k requires 0 <= k < |data| => OrDefault(Get(data[k], key), default))
  }

  /** What one renderer draws: the "No data available" placeholder or a chart. */
  datatype ChartView = NoData
                     | Bar(categories: seq<Value>, series: seq<Value>)
                     | Line(series: seq<Value>)
                     | Pie(labels: seq<Value>, values: seq<Value>)

  /** `renderBarChart`: month categories (default `''`) and revenue series (default 0). */
  function BarChart(data: seq<Record>): (v: ChartView)
    ensures v.NoData? <==> |data| == 0
    ensures v.Bar? ==> |v.categories| == |v.series| == |data|
    ensures v.Bar? ==> v.categories == Column(data, "month", Text("")) && v.series == Column(data, "revenue", Int(0))
    ensures !v.NoData? ==> v.Bar?
  {
    if |data| == 0 then NoData else Bar(Column(data, "month", Text("")), Column(data, "revenue", Int(0)))
  }

  /** `renderLineChart`: the sales series (default 0); the date labels are not modelled. */
  function LineChart(data: seq<Record>): (v: ChartView)
    ensures v.NoData? <==> |data| == 0
    ensures !v.NoData? ==> v.Line? && v.series == Column(data, "sales", Int(0)) && |v.series| == |data|
  {
    if |data| == 0 then NoData else Line(Column(data, "sales", Int(0)))
  }

  /** `renderPieChart`: category labels (default `'Unknown'`) and values (default 0). */
  function PieChart(data: seq<Record>): (v: ChartView)
    ensures v.NoData? <==> |data| == 0
    ensures !v.NoData? ==> v.Pie? && |v.labels| == |v.values| == |data|
    ensures !v.NoData? ==> v.labels == Column(data, "category", Text("Unknown")) && v.values == Column(data, "value", Int(0))
  {
    if |data| == 0 then NoData else Pie(Column(data, "category", Text("Unknown")), Column(data, "value", Int(0)))
  }

  /** A column never holds a falsy value other than its default. */
  lemma ColumnHasNoGaps(data: seq<Record>, key: string, default: Value)
    ensures forall v :: v in Column(data, key, default) ==> Truthy(v) || v == default
  {
  }

  /** The chart area: a spinner while loading, else what each `chartType === …` guard draws. */
  datatype Body = Spinner | Drawn(views: seq<ChartView>)

  function RenderBody(chartType: Option<string>, loading: bool, data: seq<Record>): (b: Body)
    ensures b.Spinner? <==> loading
    ensures b.Drawn? ==> |b.views| <= 1
    ensures b.Drawn? ==> (|b.views| == 1 <==> chartType in {Some("bar"), Some("line"), Some("pie")})
    ensures !loading && chartType == Some("bar") ==> b == Drawn([BarChart(data)])
    ensures !loading && chartType == Some("line") ==> b == Drawn([LineChart(data)])
    ensures !loading && chartType == Some("pie") ==> b == Drawn([PieChart(data)])
  {
    if loading then Spinner
    else Drawn((if chartType == Some("bar") then [BarChart(data)] else [])
               + (if chartType == Some("line") then [LineChart(data)] else [])
               + (if chartType == Some("pie") then [PieChart(data)] else []))
  }

  /** The selector's value: `chartType || 'bar'`. */
  function SelectorValue(chartType: Option<string>): (s: string)
    ensures s != ""
    ensures chartType.Some? && chartType.value != "" ==> s == chartType.value
    ensures !(chartType.Some? && chartType.value != "") ==> s == "bar"
  {
    if chartType.Some? && chartType.value != "" then chartType.value else "bar"
  }

  /** Without a chart type the selector reads `bar` yet no chart is drawn. */
  lemma MissingChartTypeShowsBarDrawsNothing(data: seq<Record>)
    ensures SelectorValue(None) == "bar" && RenderBody(None, false, data) == Drawn([])
  {
  }

  /** Once loaded, a chart never shows the "No data available" placeholder: every title maps
      to a non-empty dataset. */
  lemma LoadedChartHasData(title: string, chartType: Option<string>)
    ensures forall v :: v in RenderBody(chartType, false, LoadedData(title)).views ==> !v.NoData?
  {
  }

  /** The three titles of the default charts draw their datasets; the revenue bars are labelled
      January to June. */
  lemma DefaultChartsData()
    ensures BarChart(LoadedData("Monthly Revenue")).categories
         == [Text("Jan"), Text("Feb"), Text("Mar"), Text("Apr"), Text("May"), Text("Jun")]
    ensures |LineChart(LoadedData("Sales Trends")).series| == 11
    ensures PieChart(LoadedData("Customer Distribution")).labels == [Text("New"), Text("Returning"), Text("Regular")]
  {
    RevenueMonths();
  }

  /** `handleChartTypeChange`: `updateWidget(widget.id, {chartType: value})`. */
  function ChangeChartType(d: Dashboard, w: Widget, value: string): (r: Dashboard)
    ensures r.layouts == d.layouts && |r.widgets| == |d.widgets|
    ensures forall k :: 0 <= k < |d.widgets| ==>
              r.widgets[k] == if d.widgets[k].id == w.id then d.widgets[k].(chartType := Some(value)) else d.widgets[k]
  {
    UpdateWidget(d, w.id, EmptyPatch.(chartType := Some(Some(value))))
  }

  /** After a change the widget's chart draws the chosen renderer. */
  lemma ChangeChartTypeSelects(d: Dashboard, k: nat, value: string, data: seq<Record>)
    requires k < |d.widgets| && value in {"bar", "line", "pie"}
    ensures var c := ChangeChartType(d, d.widgets[k], value).widgets[k];
            SelectorValue(c.chartType) == value && |RenderBody(c.chartType, false, data).views| == 1
  {
  }
}

=== FILE: decimal.dfy ===
/** Decimal notation of integers, as a JavaScript template literal prints a safe integer of
    magnitude below 10^21 (larger numbers switch to exponent form there, and are printed as
    plain digits here). */
module Decimal {

  predicate IsDigit(c: char) {
    '0' <= c <= '9'
  }

  predicate AllDigits(s: string) {
    forall k :: 0 <= k < |s| ==> IsDigit(s[k])
  }

  function DigitChar(d: nat): (c: char)
    requires d < 10
    ensures IsDigit(c)
  {
    ('0' as int + d) as char
  }

  function DigitValue(c: char): (d: nat)
    requires IsDigit(c)
    ensures d < 10
  {
    c as int - '0' as int
  }

  /** `${n}` for a non-negative integer: its digits, most significant first, no leading zeros. */
  function NatToString(n: nat): (s: string)
    ensures 1 <= |s| && AllDigits(s)
    ensures s[0] == '0' ==> n == 0
    decreases n
  {
    if n < 10 then [DigitChar(n)] else NatToString(n / 10) + [DigitChar(n % 10)]
  }

  /** `${n}` for an integer of magnitude below 10^21: a minus sign before the digits of a
      negative number. */
  function IntToString(n: int): string
  {
    if n < 0 then "-" + NatToString(-n) else NatToString(n)
  }

  /** The number a string of digits denotes. */
  function ParseDigits(s: string): nat
    requires AllDigits(s)
    decreases |s|
  {
    if |s| == 0 then 0 else ParseDigits(s[..|s| - 1]) * 10 + DigitValue(s[|s| - 1])
  }

  /** Printing a number and reading it back yields the number. */
  lemma {:induction false} ParsePrinted(n: nat)
    ensures ParseDigits(NatToString(n)) == n
    decreases n
  {
    if n >= 10 {
      var s := NatToString(n);
      assert s[..|s| - 1] == NatToString(n / 10);
      ParsePrinted(n / 10);
    }
  }
}

=== FILE: grid.dfy ===
/** The dashboard grid: the layout entries it derives from the store, the way it commits layout
    changes, and which view each widget renders as. */
module Grid {
  import opened Wrappers
  import Seqs
  import opened Store

  function IsVisible(w: Widget): bool {
    w.visible
  }

  /** `widgets.filter(widget => widget.visible)`: the widgets the grid shows, in store order. */
  function VisibleWidgets(ws: seq<Widget>): seq<Widget> {
    Seqs.Filter(IsVisible, ws)
  }

  /** The layout entry of one widget: its id and geometry, with `minW || 2` and `minH || 1`. */
  function Project(w: Widget): (e: LayoutItem)
    ensures e.i == w.id && HasGeometryOf(w, e)
    ensures e.minW == (if w.minW == 0 then 2 else w.minW)
    ensures e.minH == (if w.minH == 0 then 1 else w.minH)
  {
    LayoutItem(w.id, w.x, w.y, w.w, w.h, if w.minW != 0 then w.minW else 2, if w.minH != 0 then w.minH else 1)
  }

  /** The `lg` list `generateLayouts` builds: one entry per visible widget, in store order. */
  function LayoutEntries(ws: seq<Widget>): seq<LayoutItem>
  {
    var v := VisibleWidgets(ws);
    seq(|v|, k requires 0 <= k < |v| => Project(v[k]))
  }

  /** Both directions of the membership characterisation of `LayoutEntries`. */
  lemma LayoutEntriesMembers(ws: seq<Widget>)
    ensures forall m :: 0 <= m < |ws| && ws[m].visible ==> Project(ws[m]) in LayoutEntries(ws)
    ensures forall e :: e in LayoutEntries(ws) ==> exists m :: 0 <= m < |ws| && ws[m].visible && e == Project(ws[m])
  {
    var v := VisibleWidgets(ws);
    var es := LayoutEntries(ws);
    forall m | 0 <= m < |ws| && ws[m].visible
      ensures Project(ws[m]) in es
    {
      assert ws[m] in ws && IsVisible(ws[m]);
      assert ws[m] in v;
      var k :| 0 <= k < |v| && v[k] == ws[m];
      assert es[k] == Project(ws[m]);
    }
    forall e | e in es
      ensures exists m :: 0 <= m < |ws| && ws[m].visible && e == Project(ws[m])
    {
      var k :| 0 <= k < |es| && es[k] == e;
      assert v[k] in v;
      assert v[k] in ws && IsVisible(v[k]);
      var m :| 0 <= m < |ws| && ws[m] == v[k];
    }
  }

  /** `generateLayouts()`. */
  function GenerateLayouts(ws: seq<Widget>): Layouts {
    Layouts(Some(LayoutEntries(ws)))
  }

  /** Entries follow store order and only visible widgets yield one. */
  lemma {:induction false} LayoutEntriesInStoreOrder(a: seq<Widget>, b: seq<Widget>, w: Widget)
    ensures LayoutEntries(a + b) == LayoutEntries(a) + LayoutEntries(b)
    ensures LayoutEntries([w]) == if w.visible then [Project(w)] else []
  {
    Seqs.FilterConcat(IsVisible, a, b);
    Seqs.FilterCons(IsVisible, w, []);
    assert [w] + [] == [w];
  }

  /** There are as many entries as visible widgets, and every entry's minimum sizes are truthy. */
  lemma LayoutEntriesCount(ws: seq<Widget>)
    ensures |LayoutEntries(ws)| == Seqs.Count(IsVisible, ws)
    ensures forall e :: e in LayoutEntries(ws) ==> e.minW > 0 && e.minH > 0
  {
    Seqs.FilterLength(IsVisible, ws);
  }

  /** The grid's `onLayoutChange`: whatever layout the grid reports, the store receives
      `generateLayouts()` of its own widgets. */
  function HandleLayoutChange(d: Dashboard, gridLayout: seq<LayoutItem>): (r: Dashboard)
    ensures r.layouts == Committed(GenerateLayouts(d.widgets))
  {
    UpdateLayouts(d, GenerateLayouts(d.widgets))
  }

  /** With distinct ids, a layout change leaves every widget as it was, `Bottom` included:
      the store is a fixpoint of project-then-commit. */
  lemma LayoutChangeIsFixpoint(d: Dashboard, gridLayout: seq<LayoutItem>)
    requires DistinctIds(d.widgets)
    ensures HandleLayoutChange(d, gridLayout).widgets == d.widgets
  {
    var ws := d.widgets;
    var es := LayoutEntries(ws);
    LayoutEntriesMembers(ws);
    var r := HandleLayoutChange(d, gridLayout).widgets;
    forall k | 0 <= k < |ws|
      ensures r[k] == ws[k]
    {
      assert r[k] == ApplyLayout(ws[k], Some(es));
      match FindFirst(es, ws[k].id)
      case None =>
      case Some(j) =>
        assert es[j] in es;
        var m :| 0 <= m < |ws| && ws[m].visible && es[j] == Project(ws[m]);
        assert m == k;
    }
  }

  /** A widget that shares its id with an earlier visible widget takes that widget's geometry
      on the next layout change. */
  lemma LayoutChangeMergesSharedId(d: Dashboard, i: nat, j: nat, gridLayout: seq<LayoutItem>)
    requires i < |d.widgets| && j < |d.widgets| && d.widgets[i].visible
    requires d.widgets[j].id == d.widgets[i].id
    requires forall m :: 0 <= m < i && d.widgets[m].visible ==> d.widgets[m].id != d.widgets[i].id
    ensures SameGeometry(HandleLayoutChange(d, gridLayout).widgets[j], d.widgets[i])
  {
    var ws := d.widgets;
    var id := ws[i].id;
    var pre := ws[..i];
    assert ws == pre + ([ws[i]] + ws[i + 1..]);
    LayoutEntriesInStoreOrder(pre, [ws[i]] + ws[i + 1..], ws[i]);
    LayoutEntriesInStoreOrder([ws[i]], ws[i + 1..], ws[i]);
    var es := LayoutEntries(ws);
    var p := |LayoutEntries(pre)|;
    LayoutEntriesMembers(pre);
    assert es[p] == Project(ws[i]);
    forall m | 0 <= m < p
      ensures es[m].i != id
    {
      assert es[m] in LayoutEntries(pre);
    }
    assert FirstIndexOf(es, id, p);
  }

  /** The instance from the defaults: after removing `widget2` and adding a widget, the new
      `widget5` leaves the bottom and lands on the old `widget5` at the next layout change. */
  lemma DefaultsDuplicateCollapses(gridLayout: seq<LayoutItem>)
    ensures var d := AddWidget(RemoveWidget(InitialDashboard, "widget2"), "table", "Orders");
            var r := HandleLayoutChange(d, gridLayout).widgets;
            d.widgets[4].y == Bottom && r[4].x == 8 && r[4].y == Row(2) && r[4].w == 4 && r[4].h == 2
  {
    DefaultsReuseWidget5();
    var d := AddWidget(RemoveWidget(InitialDashboard, "widget2"), "table", "Orders");
    LayoutChangeMergesSharedId(d, 3, 4, gridLayout);
  }

  // ---- Rendering dispatch ---------------------------------------------------

  datatype View = TableView(table: Widget) | ChartView(chart: Widget) | StatsView(stats: Widget) | UnknownView

  /** `renderWidget(widget)`: nothing for a hidden widget, else the view for its type. */
  function RenderWidget(w: Widget): (r: Option<View>)
    ensures r.None? <==> !w.visible
    ensures r.Some? ==> (r.value.UnknownView? <==> w.kind !in {"table", "chart", "stats"})
    ensures w.visible && w.kind == "table" ==> r == Some(TableView(w))
    ensures w.visible && w.kind == "chart" ==> r == Some(ChartView(w))
    ensures w.visible && w.kind == "stats" ==> r == Some(StatsView(w))
  {
    if !w.visible then None
    else match w.kind
      case "table" => Some(TableView(w))
      case "chart" => Some(ChartView(w))
      case "stats" => Some(StatsView(w))
      case _ => Some(UnknownView)
  }

  /** One child of the grid: a container keyed by the widget id. */
  datatype Child = Child(key: string, content: Option<View>)

  /** The grid's children: the visible widgets in store order, each rendered. */
  function Children(ws: seq<Widget>): seq<Child> {
    var v := VisibleWidgets(ws);
    seq(|v|, k requires 0 <= k < |v| => Child(v[k].id, RenderWidget(v[k])))
  }

  /** The children carry the same ids, in the same order, as the layout entries, and each
      renders some view. */
  lemma ChildrenMatchLayout(ws: seq<Widget>)
    ensures |Children(ws)| == |LayoutEntries(ws)|
    ensures forall k :: 0 <= k < |Children(ws)| ==>
              Children(ws)[k].key == LayoutEntries(ws)[k].i && Children(ws)[k].content.Some?
  {
    var v := VisibleWidgets(ws);
    assert forall k :: 0 <= k < |v| ==> v[k] in v;
  }
}

=== FILE: header.dfy ===
/** The dashboard header's add-widget form: three pieces of local state and the guarded submit. */
module Header {
  import opened Store

  /** `showAddMenu`, `newWidgetTitle` and `newWidgetType`. */
  datatype Form = Form(showAddMenu: bool, title: string, kind: string)

  const InitialForm: Form := Form(false, "", "table")

  /** The characters JavaScript's `String.prototype.trim` strips: white space and line terminators. */
  predicate IsWhitespace(c: char) {
    var n := c as int;
    n == 0x09 || n == 0x0A || n == 0x0B || n == 0x0C || n == 0x0D || n == 0x20 || n == 0xA0
    || n == 0x1680 || (0x2000 <= n <= 0x200A) || n == 0x2028 || n == 0x2029 || n == 0x202F
    || n == 0x205F || n == 0x3000 || n == 0xFEFF
  }

  predicate Blank(s: string) {
    forall k :: 0 <= k < |s| ==> IsWhitespace(s[k])
  }

  /** `s` without its leading white space. */
  function TrimStart(s: string): (r: string)
    ensures |r| <= |s| && r == s[|s| - |r|..]
    ensures Blank(s[..|s| - |r|])
    ensures |r| > 0 ==> !IsWhitespace(r[0])
  {
    if |s| > 0 && IsWhitespace(s[0]) then
      var r := TrimStart(s[1..]);
      assert s[1..][..|s[1..]| - |r|] == s[1..|s| - |r|];
      r
    else s
  }

  /** `s` without its trailing white space. */
  function TrimEnd(s: string): (r: string)
    ensures |r| <= |s| && r == s[..|r|]
    ensures Blank(s[|r|..])
    ensures |r| > 0 ==> !IsWhitespace(r[|r| - 1])
  {
    if |s| > 0 && IsWhitespace(s[|s| - 1]) then
      var r := TrimEnd(s[..|s| - 1]);
      assert s[..|s| - 1][..|r|] == s[..|r|];
      r
    else s
  }

  /** `s.trim()`. */
  function Trim(s: string): string {
    TrimEnd(TrimStart(s))
  }

  /** `title.trim()` is falsy exactly when the title is empty or white space only. */
  lemma TrimEmptyIffBlank(s: string)
    ensures Trim(s) == "" <==> Blank(s)
  {
    var t := TrimStart(s);
    if Trim(s) == "" {
      assert Blank(t[0..]);
      assert s == s[..|s| - |t|] + t;
    }
  }

  /** `handleAddWidget`: a non-blank title adds a widget of the selected type with the title as
      typed (untrimmed), then clears the title and closes the menu; a blank one changes nothing. */
  function HandleAddWidget(f: Form, d: Dashboard): (r: (Form, Dashboard))
    ensures Blank(f.title) ==> r == (f, d)
    ensures !Blank(f.title) ==> r.1 == AddWidget(d, f.kind, f.title)
    ensures !Blank(f.title) ==> r.0 == Form(false, "", f.kind)
    ensures |r.1.widgets| == |d.widgets| + 1 <==> !Blank(f.title)
  {
    TrimEmptyIffBlank(f.title);
    if Trim(f.title) != "" then (Form(false, "", f.kind), AddWidget(d, f.kind, f.title)) else (f, d)
  }

  /** What the user can do: press Add Widget, type a title, pick a type, press Cancel or Add. */
  datatype Event = ToggleMenu | EditTitle(text: string) | SelectKind(kind: string) | Cancel | Submit

  /** The title field, type select, Cancel and Add exist only while the menu is open, so with
      the menu closed only the Add Widget button has an effect. */
  function Step(f: Form, d: Dashboard, e: Event): (Form, Dashboard) {
    if !f.showAddMenu && e != ToggleMenu then (f, d)
    else match e
    case ToggleMenu => (f.(showAddMenu := !f.showAddMenu), d)
    case EditTitle(t) => (f.(title := t), d)
    case SelectKind(k) => (f.(kind := k), d)
    case Cancel => (f.(showAddMenu := false), d)
    case Submit => HandleAddWidget(f, d)
  }

  /** Only Submit with a non-blank title on the open menu touches the store; with the menu
      closed only Add Widget changes anything; Add Widget twice restores the form; Cancel
      closes the menu and keeps the title and type. */
  lemma StepFrames(f: Form, d: Dashboard, e: Event)
    ensures Step(f, d, e).1 != d ==> e == Submit && f.showAddMenu && !Blank(f.title)
    ensures !f.showAddMenu && e != ToggleMenu ==> Step(f, d, e) == (f, d)
    ensures Step(Step(f, d, ToggleMenu).0, d, ToggleMenu).0 == f
    ensures var c := Step(f, d, Cancel).0;
            !c.showAddMenu && c.title == f.title && c.kind == f.kind
  {
  }

  /** Opening the form, typing a title and pressing Add from the initial state adds a table. */
  lemma FirstAddIsTable(d: Dashboard, t: string)
    requires !Blank(t)
    ensures var f := Step(Step(InitialForm, d, ToggleMenu).0, d, EditTitle(t)).0;
            Step(f, d, Submit) == (InitialForm, AddWidget(d, "table", t))
  {
  }
}

=== FILE: mock_data.dfy ===
/** The mock data service: five static datasets and a lookup from a dataset key to its records. */
module MockData {
  import opened Wrappers

  /** The JavaScript values the datasets hold. */
  datatype Value = Int(n: int) | Text(s: string) | Bool(b: bool)

  /** One property of a record. The sequence order is the order `Object.values` lists them in,
      which is insertion order for the distinct, non-index keys the datasets use. */
  datatype Field = Field(key: string, value: Value)

  type Record = seq<Field>

  /** The request options `fetchData` accepts (and ignores). */
  type Filters = map<string, Value>

  /** JavaScript truthiness of a value: `0`, `""` and `false` are the falsy ones. */
  predicate Truthy(v: Value) {
    match v
    case Int(n) => n != 0
    case Text(s) => s != ""
    case Bool(b) => b
  }

  /** Property access `record[key]`: the value of the first field with that key, if any. */
  function Get(r: Record, key: string): (v: Option<Value>)
    ensures v.Some? <==> exists k :: 0 <= k < |r| && r[k].key == key
    ensures v.Some? ==> exists k :: 0 <= k < |r| && r[k] == Field(key, v.value)
  {
    if |r| == 0 then None
    else if r[0].key == key then Some(r[0].value)
    else
      var v := Get(r[1..], key);
      assert v.Some? ==> exists k :: 0 <= k < |r[1..]| && r[1..][k] == Field(key, v.value);
      v
  }

  /** `record.key || default`: the property when it is present and truthy, the default otherwise. */
  function OrDefault(v: Option<Value>, default: Value): (r: Value)
    ensures (v.Some? && Truthy(v.value)) ==> r == v.value
    ensures !(v.Some? && Truthy(v.value)) ==> r == default
  {
    if v.Some? && Truthy(v.value) then v.value else default
  }

  // ---- Static datasets ------------------------------------------------------

  function Customer(id: int, name: string, email: string, status: string,
                    lastOrder: string, totalSpent: string): Record
  {
    [Field("id", Int(id)), Field("name", Text(name)), Field("email", Text(email)),
     Field("status", Text(status)), Field("lastOrder", Text(lastOrder)),
     Field("totalSpent", Text(totalSpent))]
  }

  const Customers: seq<Record> := [
    Customer(1, "John Doe", "john@example.com", "Active", "2025-06-01", "$1,240"),
    Customer(2, "Jane Smith", "jane@example.com", "Active", "2025-05-28", "$890"),
    Customer(3, "Robert Johnson", "robert@example.com", "Inactive", "2025-04-15", "$2,100"),
    Customer(4, "Emily Davis", "emily@example.com", "Active", "2025-06-02", "$345"),
    Customer(5, "Michael Wilson", "michael@example.com", "Pending", "2025-05-30", "$1,560"),
    Customer(6, "Sarah Taylor", "sarah@example.com", "Active", "2025-05-25", "$780"),
    Customer(7, "David Brown", "david@example.com", "Active", "2025-06-03", "$2,340")
  ]

  function Revenue(month: string, revenue: int): Record {
    [Field("month", Text(month)), Field("revenue", Int(revenue))]
  }

  const RevenueData: seq<Record> := [
    Revenue("Jan", 12000), Revenue("Feb", 15000), Revenue("Mar", 18000),
    Revenue("Apr", 14000), Revenue("May", 21000), Revenue("Jun", 25000)
  ]

  function Sales(date: string, sales: int): Record {
    [Field("date", Text(date)), Field("sales", Int(sales))]
  }

  const SalesTrends: seq<Record> := [
    Sales("2025-01-01", 420), Sales("2025-01-15", 480), Sales("2025-02-01", 550),
    Sales("2025-02-15", 520), Sales("2025-03-01", 680), Sales("2025-03-15", 720),
    Sales("2025-04-01", 750), Sales("2025-04-15", 790), Sales("2025-05-01", 860),
    Sales("2025-05-15", 940), Sales("2025-06-01", 980)
  ]

  function Share(category: string, value: int): Record {
    [Field("category", Text(category)), Field("value", Int(value))]
  }

  const CustomerDistribution: seq<Record> := [
    Share("New", 30), Share("Returning", 45), Share("Regular", 25)
  ]

  function Metric(name: string, value: string, change: string, isPositive: bool): Record {
    [Field("name", Text(name)), Field("value", Text(value)), Field("change", Text(change)),
     Field("isPositive", Bool(isPositive))]
  }

  const KeyMetrics: seq<Record> := [
    Metric("Total Revenue", "$82,400", "+12%", true),
    Metric("Active Users", "1,245", "+8%", true),
    Metric("Conversion Rate", "3.2%", "-0.5%", false),
    Metric("Avg. Order Value", "$128", "+5%", true)
  ]

  /** The keys `fetchData` recognises. */
  const DatasetKeys: set<string> := {"customers", "revenue", "sales", "distribution", "metrics"}

  // ---- Lookup ---------------------------------------------------------------

  /** `fetchData(dataType, filters)` without its simulated delay: the dataset for a recognised
      key, the empty list for any other key; `filters` plays no part. */
  function FetchData(dataType: string, filters: Filters): (r: seq<Record>)
    ensures |r| > 0 <==> dataType in DatasetKeys
    ensures dataType == "customers" ==> r == Customers
    ensures dataType == "revenue" ==> r == RevenueData
    ensures dataType == "sales" ==> r == SalesTrends
    ensures dataType == "distribution" ==> r == CustomerDistribution
    ensures dataType == "metrics" ==> r == KeyMetrics
  {
    match dataType
    case "customers" => Customers
    case "revenue" => RevenueData
    case "sales" => SalesTrends
    case "distribution" => CustomerDistribution
    case "metrics" => KeyMetrics
    case _ => []
  }

  /** The `filters` argument never changes the answer. */
  lemma FetchIgnoresFilters(dataType: string, f: Filters, g: Filters)
    ensures FetchData(dataType, f) == FetchData(dataType, g)
  {
  }

  /** Seven customers whose `id`s are 1 to 7 in order, hence pairwise distinct. */
  lemma CustomerIds()
    ensures |Customers| == 7
    ensures forall k :: 0 <= k < |Customers| ==> Get(Customers[k], "id") == Some(Int(k + 1))
    ensures forall j, k :: 0 <= j < k < |Customers| ==> Get(Customers[j], "id") != Get(Customers[k], "id")
  {
  }

  const Months: seq<string> := ["Jan", "Feb", "Mar", "Apr", "May", "Jun"]

  /** Six revenue entries, January to June in order. */
  lemma RevenueMonths()
    ensures |RevenueData| == |Months| == 6
    ensures forall k :: 0 <= k < |RevenueData| ==> Get(RevenueData[k], "month") == Some(Text(Months[k]))
  {
  }

  /** Sum of the integer values stored under `key` (other values count as 0). */
  function Total(rs: seq<Record>, key: string): int
  {
    if |rs| == 0 then 0
    else (match Get(rs[0], key) case Some(Int(n)) => n case _ => 0) + Total(rs[1..], key)
  }

  /** The distribution shares are percentages: 30 + 45 + 25 = 100. */
  lemma DistributionIsWhole()
    ensures Total(CustomerDistribution, "value") == 100
  {
    assert CustomerDistribution[1..][1..][1..] == [];
  }
}

=== FILE: notifications.dfy ===
/** The notification list: append with defaults, removal by id, and the banner style chosen per type. */
module Notifications {
  import opened Wrappers
  import Seqs

  datatype Notification = Notification(id: string, kind: string, message: string)

  /** What `addNotification` returns and leaves behind: the new list, the id, and the delay after
      which a timer will remove the notification (`None`: no timer is scheduled). */
  datatype Added = Added(notifications: seq<Notification>, id: string, dismissAfter: Option<int>)

  const DefaultKind: string := "info"
  const DefaultDuration: int := 5000

  /** `addNotification({type, message, duration})`. The id, which the source takes from the
      clock (`Date.now().toString()`), is a parameter; `None` stands for an omitted property. */
  function AddNotification(ns: seq<Notification>, id: string, kind: Option<string>, message: string,
                           duration: Option<int>): (r: Added)
    ensures r.id == id
    ensures |r.notifications| == |ns| + 1 && r.notifications[..|ns|] == ns
    ensures r.notifications[|ns|] == Notification(id, kind.GetOr(DefaultKind), message)
    ensures r.dismissAfter.Some? <==> duration != Some(0)
    ensures r.dismissAfter.Some? ==> r.dismissAfter.value == duration.GetOr(DefaultDuration)
  {
    var d := duration.GetOr(DefaultDuration);
    Added(ns + [Notification(id, kind.GetOr(DefaultKind), message)], id, if d != 0 then Some(d) else None)
  }

  function KeepUnless(id: string): Notification -> bool {
    (n: Notification) => n.id != id
  }

  /** `removeNotification(id)`: drop every notification with that id. */
  function RemoveNotification(ns: seq<Notification>, id: string): (r: seq<Notification>)
    ensures forall n :: n in r <==> n in ns && n.id != id
  {
    Seqs.Filter(KeepUnless(id), ns)
  }

  /** Removal keeps the others in order, is idempotent, and ignores an unknown id. */
  lemma RemoveNotificationLaws(a: seq<Notification>, b: seq<Notification>, id: string)
    ensures RemoveNotification(a + b, id) == RemoveNotification(a, id) + RemoveNotification(b, id)
    ensures RemoveNotification(RemoveNotification(a, id), id) == RemoveNotification(a, id)
    ensures (forall n :: n in a ==> n.id != id) ==> RemoveNotification(a, id) == a
  {
    Seqs.FilterConcat(KeepUnless(id), a, b);
    Seqs.FilterIdempotent(KeepUnless(id), a);
    Seqs.FilterUnchangedIff(KeepUnless(id), a);
  }

  /** Adding then removing by the returned id restores a list that did not use that id. */
  lemma AddThenRemove(ns: seq<Notification>, id: string, kind: Option<string>, message: string,
                      duration: Option<int>)
    requires forall n :: n in ns ==> n.id != id
    ensures RemoveNotification(AddNotification(ns, id, kind, message, duration).notifications, id) == ns
  {
    var added := AddNotification(ns, id, kind, message, duration);
    assert added.notifications == ns + [added.notifications[|ns|]];
    RemoveNotificationLaws(ns, [added.notifications[|ns|]], id);
  }

  /** Two notifications added in the same millisecond share an id, so one removal (the first
      timer to fire, or a click) drops both. */
  lemma SameMillisecondRemovesBoth(ns: seq<Notification>, id: string, k1: Option<string>, m1: string,
                                   d1: Option<int>, k2: Option<string>, m2: string, d2: Option<int>)
    ensures var once := AddNotification(ns, id, k1, m1, d1).notifications;
            var twice := AddNotification(once, id, k2, m2, d2).notifications;
            RemoveNotification(twice, id) == RemoveNotification(ns, id)
  {
    var once := AddNotification(ns, id, k1, m1, d1).notifications;
    var twice := AddNotification(once, id, k2, m2, d2).notifications;
    assert twice == ns + [once[|ns|], twice[|once|]];
    RemoveNotificationLaws(ns, [once[|ns|], twice[|once|]], id);
    RemoveNotificationLaws([once[|ns|], twice[|once|]], [], id);
  }

  // ---- Container ------------------------------------------------------------

  datatype Style = Success | Error | Info

  /** The banner style: green for `success`, red for `error`, blue for every other type. */
  function StyleOf(kind: string): (s: Style)
    ensures s == Success <==> kind == "success"
    ensures s == Error <==> kind == "error"
  {
    if kind == "success" then Success else if kind == "error" then Error else Info
  }

  datatype Banner = Banner(key: string, style: Style, message: string)

  /** `NotificationContainer`: nothing for an empty list, otherwise one banner per notification. */
  function Container(ns: seq<Notification>): (r: Option<seq<Banner>>)
    ensures r.None? <==> |ns| == 0
    ensures r.Some? ==> |r.value| == |ns|
    ensures r.Some? ==> forall k :: 0 <= k < |ns| ==> r.value[k].key == ns[k].id && r.value[k].message == ns[k].message
    ensures r.Some? ==> forall k :: 0 <= k < |ns| ==> r.value[k].style == StyleOf(ns[k].kind)
  {
    if |ns| == 0 then None
    else Some(seq(|ns|, k requires 0 <= k < |ns| => Banner(ns[k].id, StyleOf(ns[k].kind), ns[k].message)))
  }

  /** A notification added without a type shows as an information banner. */
  lemma UntypedIsInfo(ns: seq<Notification>, id: string, message: string, duration: Option<int>)
    ensures var c := Container(AddNotification(ns, id, None, message, duration).notifications);
            c.Some? && c.value[|ns|].style == Info
  {
  }
}

=== FILE: seqs.dfy ===
/** Sequence helpers shared by the store, the grid and the notification list. */
module Seqs {

  /** The elements of `s` that satisfy `keep`, in their original order
      (JavaScript's `Array.prototype.filter`). */
  function Filter<T(!new)>(keep: T -> bool, s: seq<T>): (r: seq<T>)
    ensures |r| <= |s|
    ensures forall x :: x in r <==> x in s && keep(x)
  {
    if |s| == 0 then []
    else if keep(s[0]) then [s[0]] + Filter(keep, s[1..])
    else Filter(keep, s[1..])
  }

  /** Filtering distributes over concatenation: no element moves past another. */
  lemma {:induction false} FilterConcat<T(!new)>(keep: T -> bool, a: seq<T>, b: seq<T>)
    ensures Filter(keep, a + b) == Filter(keep, a) + Filter(keep, b)
  {
    if |a| == 0 {
      assert a + b == b;
    } else {
      assert (a + b)[0] == a[0];
      assert (a + b)[1..] == a[1..] + b;
      FilterConcat(keep, a[1..], b);
    }
  }

  /** Filtering a sequence with a known head decides the head on its own. */
  lemma FilterCons<T(!new)>(keep: T -> bool, x: T, s: seq<T>)
    ensures Filter(keep, [x] + s) == (if keep(x) then [x] else []) + Filter(keep, s)
  {
    assert ([x] + s)[0] == x;
    assert ([x] + s)[1..] == s;
  }

  /** A filter leaves a sequence unchanged exactly when every element is kept. */
  lemma {:induction false} FilterUnchangedIff<T(!new)>(keep: T -> bool, s: seq<T>)
    ensures Filter(keep, s) == s <==> forall x :: x in s ==> keep(x)
  {
    if forall x :: x in s ==> keep(x) {
      if |s| > 0 {
        assert s[0] in s;
        assert forall x :: x in s[1..] ==> x in s;
        FilterUnchangedIff(keep, s[1..]);
      }
    }
  }

  /** Filtering twice with the same predicate is the same as filtering once. */
  lemma FilterIdempotent<T(!new)>(keep: T -> bool, s: seq<T>)
    ensures Filter(keep, Filter(keep, s)) == Filter(keep, s)
  {
    FilterUnchangedIff(keep, Filter(keep, s));
  }

  /** The number of elements of `s` that satisfy `keep`. */
  function Count<T>(keep: T -> bool, s: seq<T>): nat
  {
    if |s| == 0 then 0 else (if keep(s[0]) then 1 else 0) + Count(keep, s[1..])
  }

  /** A filter keeps one element per element that satisfies the predicate. */
  lemma {:induction false} FilterLength<T(!new)>(keep: T -> bool, s: seq<T>)
    ensures |Filter(keep, s)| == Count(keep, s)
  {
    if |s| > 0 {
      FilterLength(keep, s[1..]);
    }
  }
}

=== FILE: store.dfy ===
/** The dashboard store: a flat list of widget records plus the last committed grid layout,
    and the five operations that replace it. Each operation returns the next state. */
module Store {
  import opened Wrappers
  import Seqs
  import Decimal

  /** A widget's top row: a grid row, or the `Infinity` sentinel meaning "below everything". */
  datatype Y = Row(row: nat) | Bottom

  /** One widget record. `kind` is the `type` property; `chartType` is absent (or `null`)
      for widgets that are not charts. */
  datatype Widget = Widget(id: string, kind: string, title: string, visible: bool,
                           chartType: Option<string>,
                           x: nat, y: Y, w: nat, h: nat, minW: nat, minH: nat)

  /** One grid layout entry; `i` carries the widget id. */
  datatype LayoutItem = LayoutItem(i: string, x: nat, y: Y, w: nat, h: nat, minW: nat, minH: nat)

  /** The layouts object handed to `updateLayouts`; only the `lg` breakpoint is read, and it may be absent. */
  datatype Layouts = Layouts(lg: Option<seq<LayoutItem>>)

  /** The store's `layouts` property: initially `{lg: defaultWidgets}` (widget records, not layout
      items), afterwards whatever layouts object the last `updateLayouts` received. */
  datatype LayoutState = Initial(lgWidgets: seq<Widget>) | Committed(layouts: Layouts)

  datatype Dashboard = Dashboard(widgets: seq<Widget>, layouts: LayoutState)

  /** The partial record `updateWidget` spreads over a widget: `None` leaves a property alone. */
  datatype Patch = Patch(id: Option<string>, kind: Option<string>, title: Option<string>,
                         visible: Option<bool>, chartType: Option<Option<string>>,
                         x: Option<nat>, y: Option<Y>, w: Option<nat>, h: Option<nat>,
                         minW: Option<nat>, minH: Option<nat>)

  const EmptyPatch: Patch := Patch(None, None, None, None, None, None, None, None, None, None, None)

  // ---- Defaults -------------------------------------------------------------

  const DefaultWidgets: seq<Widget> := [
    Widget("widget1", "table", "Recent Customers", true, None, 0, Row(0), 6, 2, 2, 2),
    Widget("widget2", "chart", "Monthly Revenue", true, Some("bar"), 6, Row(0), 6, 2, 2, 2),
    Widget("widget3", "chart", "Sales Trends", true, Some("line"), 0, Row(2), 4, 2, 2, 2),
    Widget("widget4", "chart", "Customer Distribution", true, Some("pie"), 4, Row(2), 4, 2, 2, 2),
    Widget("widget5", "stats", "Key Metrics", true, None, 8, Row(2), 4, 2, 2, 1)
  ]

  const InitialDashboard: Dashboard := Dashboard(DefaultWidgets, Initial(DefaultWidgets))

  // ---- Vocabulary -----------------------------------------------------------

  function Ids(ws: seq<Widget>): (ids: seq<string>)
    ensures |ids| == |ws|
    ensures forall k :: 0 <= k < |ws| ==> ids[k] == ws[k].id
  {
    seq(|ws|, k requires 0 <= k < |ws| => ws[k].id)
  }

  predicate DistinctIds(ws: seq<Widget>) {
    forall j, k :: 0 <= j < k < |ws| ==> ws[j].id != ws[k].id
  }

  predicate HasGeometryOf(w: Widget, e: LayoutItem) {
    w.x == e.x && w.y == e.y && w.w == e.w && w.h == e.h
  }

  /** `a` and `b` agree on everything except possibly x, y, w and h. */
  predicate SameExceptGeometry(a: Widget, b: Widget) {
    a.(x := b.x, y := b.y, w := b.w, h := b.h) == b
  }

  predicate SameGeometry(a: Widget, b: Widget) {
    a.x == b.x && a.y == b.y && a.w == b.w && a.h == b.h
  }

  /** `j` is the position of the first entry of `items` whose `i` is `id`. */
  predicate FirstIndexOf(items: seq<LayoutItem>, id: string, j: int) {
    0 <= j < |items| && items[j].i == id && forall m :: 0 <= m < j ==> items[m].i != id
  }

  /** Some entry of the `lg` layout names `id`. */
  predicate Matched(nl: Layouts, id: string) {
    nl.lg.Some? && exists j :: 0 <= j < |nl.lg.value| && nl.lg.value[j].i == id
  }

  // ---- updateLayouts --------------------------------------------------------

  /** `lg.find(item => item.i === id)`, as a position. */
  function FindFirst(items: seq<LayoutItem>, id: string): (r: Option<nat>)
    ensures r.Some? ==> FirstIndexOf(items, id, r.value)
    ensures r.None? ==> forall j :: 0 <= j < |items| ==> items[j].i != id
  {
    if |items| == 0 then None
    else if items[0].i == id then Some(0)
    else match FindFirst(items[1..], id)
      case None => None
      case Some(j) => Some(j + 1)
  }

  /** One widget after `updateLayouts`: geometry from the first matching entry, if any. */
  function ApplyLayout(w: Widget, lg: Option<seq<LayoutItem>>): Widget
  {
    if lg.None? then w
    else match FindFirst(lg.value, w.id)
      case None => w
      case Some(j) => w.(x := lg.value[j].x, y := lg.value[j].y, w := lg.value[j].w, h := lg.value[j].h)
  }

  /** `updateLayouts(newLayouts)`: copy x, y, w, h verbatim from the first `lg` entry naming each
      widget (no clamping to minW/minH), and keep `newLayouts` as the store's layouts. */
  function UpdateLayouts(d: Dashboard, nl: Layouts): (r: Dashboard)
    ensures |r.widgets| == |d.widgets|
    ensures r.layouts == Committed(nl)
    ensures forall k :: 0 <= k < |d.widgets| ==> SameExceptGeometry(d.widgets[k], r.widgets[k])
    ensures forall k, j :: 0 <= k < |d.widgets| && nl.lg.Some? && FirstIndexOf(nl.lg.value, d.widgets[k].id, j)
                           ==> HasGeometryOf(r.widgets[k], nl.lg.value[j])
    ensures forall k :: 0 <= k < |d.widgets| && !Matched(nl, d.widgets[k].id) ==> r.widgets[k] == d.widgets[k]
  {
    Dashboard(seq(|d.widgets|, k requires 0 <= k < |d.widgets| => ApplyLayout(d.widgets[k], nl.lg)),
              Committed(nl))
  }

  /** A layouts object without `lg` changes no widget. */
  lemma UpdateLayoutsWithoutLg(d: Dashboard)
    ensures UpdateLayouts(d, Layouts(None)).widgets == d.widgets
  {
  }

  /** Geometry is copied even when it violates the widget's minimum size. */
  lemma UpdateLayoutsDoesNotClamp()
    ensures var r := UpdateLayouts(InitialDashboard, Layouts(Some([LayoutItem("widget1", 0, Row(0), 1, 1, 2, 2)])));
            r.widgets[0].w == 1 < r.widgets[0].minW && r.widgets[0].h == 1 < r.widgets[0].minH
  {
    var items := [LayoutItem("widget1", 0, Row(0), 1, 1, 2, 2)];
    assert FirstIndexOf(items, "widget1", 0);
  }

  // ---- toggleWidgetVisibility -----------------------------------------------

  function Flip(w: Widget, id: string): Widget {
    if w.id == id then w.(visible := !w.visible) else w
  }

  /** `toggleWidgetVisibility(id)`. */
  function ToggleWidgetVisibility(d: Dashboard, id: string): (r: Dashboard)
    ensures r.layouts == d.layouts && |r.widgets| == |d.widgets|
    ensures forall k :: 0 <= k < |d.widgets| ==>
              r.widgets[k].(visible := d.widgets[k].visible) == d.widgets[k] &&
              (r.widgets[k].visible != d.widgets[k].visible <==> d.widgets[k].id == id)
  {
    d.(widgets := seq(|d.widgets|, k requires 0 <= k < |d.widgets| => Flip(d.widgets[k], id)))
  }

  /** Toggling twice restores the store. */
  lemma ToggleTwice(d: Dashboard, id: string)
    ensures ToggleWidgetVisibility(ToggleWidgetVisibility(d, id), id) == d
  {
    var r := ToggleWidgetVisibility(ToggleWidgetVisibility(d, id), id);
    assert r.widgets == d.widgets;
  }

  /** Toggling an id no widget has changes nothing. */
  lemma ToggleAbsent(d: Dashboard, id: string)
    requires id !in Ids(d.widgets)
    ensures ToggleWidgetVisibility(d, id) == d
  {
    assert ToggleWidgetVisibility(d, id).widgets == d.widgets;
  }

  // ---- addWidget ------------------------------------------------------------

  /** The id `addWidget` derives from the list length `n`: `widget${n + 1}`. */
  function NewWidgetId(n: nat): string {
    "widget" + Decimal.NatToString(n + 1)
  }

  function NewWidget(id: string, kind: string, title: string): Widget {
    Widget(id, kind, title, true, if kind == "chart" then Some("bar") else None, 0, Bottom, 6, 2, 2, 2)
  }

  /** `addWidget(widgetType, title)`: append one new widget at the bottom. */
  function AddWidget(d: Dashboard, kind: string, title: string): (r: Dashboard)
    ensures r.layouts == d.layouts
    ensures |r.widgets| == |d.widgets| + 1 && r.widgets[..|d.widgets|] == d.widgets
    ensures var nw := r.widgets[|d.widgets|];
            && nw.id == NewWidgetId(|d.widgets|) && nw.kind == kind && nw.title == title
            && nw.visible && nw.x == 0 && nw.y == Bottom
            && nw.w == 6 && nw.h == 2 && nw.minW == 2 && nw.minH == 2
            && (nw.chartType == Some("bar") <==> kind == "chart")
            && (nw.chartType.None? <==> kind != "chart")
  {
    d.(widgets := d.widgets + [NewWidget(NewWidgetId(|d.widgets|), kind, title)])
  }

  // ---- updateWidget ---------------------------------------------------------

  /** `{ ...widget, ...properties }`. */
  function Merge(w: Widget, p: Patch): Widget {
    Widget(p.id.GetOr(w.id), p.kind.GetOr(w.kind), p.title.GetOr(w.title), p.visible.GetOr(w.visible),
           p.chartType.GetOr(w.chartType), p.x.GetOr(w.x), p.y.GetOr(w.y), p.w.GetOr(w.w), p.h.GetOr(w.h),
           p.minW.GetOr(w.minW), p.minH.GetOr(w.minH))
  }

  /** Spreading `p` and then `q` is spreading their union, with `q` winning. */
  function Then(p: Patch, q: Patch): Patch {
    Patch(if q.id.Some? then q.id else p.id, if q.kind.Some? then q.kind else p.kind,
          if q.title.Some? then q.title else p.title, if q.visible.Some? then q.visible else p.visible,
          if q.chartType.Some? then q.chartType else p.chartType, if q.x.Some? then q.x else p.x,
          if q.y.Some? then q.y else p.y, if q.w.Some? then q.w else p.w, if q.h.Some? then q.h else p.h,
          if q.minW.Some? then q.minW else p.minW, if q.minH.Some? then q.minH else p.minH)
  }

  /** Merge algebra: the empty patch is neutral, merges compose, and a merge is idempotent. */
  lemma MergeLaws(w: Widget, p: Patch, q: Patch)
    ensures Merge(w, EmptyPatch) == w
    ensures Merge(Merge(w, p), q) == Merge(w, Then(p, q))
    ensures Merge(Merge(w, p), p) == Merge(w, p)
  {
  }

  function Patched(w: Widget, id: string, p: Patch): Widget {
    if w.id == id then Merge(w, p) else w
  }

  /** `updateWidget(id, properties)`: shallow-merge into every widget with that id. */
  function UpdateWidget(d: Dashboard, id: string, p: Patch): (r: Dashboard)
    ensures r.layouts == d.layouts && |r.widgets| == |d.widgets|
    ensures forall k :: 0 <= k < |d.widgets| && d.widgets[k].id != id ==> r.widgets[k] == d.widgets[k]
    ensures forall k :: 0 <= k < |d.widgets| && d.widgets[k].id == id ==> r.widgets[k] == Merge(d.widgets[k], p)
  {
    d.(widgets := seq(|d.widgets|, k requires 0 <= k < |d.widgets| => Patched(d.widgets[k], id, p)))
  }

  /** Updating an id no widget has changes nothing. */
  lemma UpdateAbsent(d: Dashboard, id: string, p: Patch)
    requires id !in Ids(d.widgets)
    ensures UpdateWidget(d, id, p) == d
  {
    assert UpdateWidget(d, id, p).widgets == d.widgets;
  }

  /** Repeating an update changes nothing further, whatever the patch: a widget it renamed no
      longer carries the id, and one it kept is already merged. */
  lemma UpdateTwice(d: Dashboard, id: string, p: Patch)
    ensures UpdateWidget(UpdateWidget(d, id, p), id, p) == UpdateWidget(d, id, p)
  {
    var once := UpdateWidget(d, id, p);
    assert UpdateWidget(once, id, p).widgets == once.widgets;
  }

  // ---- removeWidget ---------------------------------------------------------

  function KeepUnless(id: string): Widget -> bool {
    (w: Widget) => w.id != id
  }

  /** `removeWidget(id)`: drop every widget with that id. */
  function RemoveWidget(d: Dashboard, id: string): (r: Dashboard)
    ensures r.layouts == d.layouts
    ensures forall w :: w in r.widgets <==> w in d.widgets && w.id != id
  {
    d.(widgets := Seqs.Filter(KeepUnless(id), d.widgets))
  }

  /** Removal keeps the survivors in order: it distributes over concatenation and decides
      each widget on its own. */
  lemma RemoveKeepsOrder(a: seq<Widget>, b: seq<Widget>, w: Widget, id: string, l: LayoutState)
    ensures RemoveWidget(Dashboard(a + b, l), id).widgets
         == RemoveWidget(Dashboard(a, l), id).widgets + RemoveWidget(Dashboard(b, l), id).widgets
    ensures RemoveWidget(Dashboard([w], l), id).widgets == if w.id == id then [] else [w]
  {
    Seqs.FilterConcat(KeepUnless(id), a, b);
  }

  /** Removing twice is removing once; removing an absent id changes nothing. */
  lemma RemoveIdempotent(d: Dashboard, id: string)
    ensures RemoveWidget(RemoveWidget(d, id), id) == RemoveWidget(d, id)
    ensures id !in Ids(d.widgets) ==> RemoveWidget(d, id) == d
  {
    Seqs.FilterIdempotent(KeepUnless(id), d.widgets);
    if id !in Ids(d.widgets) {
      assert forall w :: w in d.widgets ==> KeepUnless(id)(w);
      Seqs.FilterUnchangedIff(KeepUnless(id), d.widgets);
    }
  }

  /** Adding a widget whose id is new and then removing that id restores the list. */
  lemma AddThenRemove(d: Dashboard, kind: string, title: string)
    requires NewWidgetId(|d.widgets|) !in Ids(d.widgets)
    ensures RemoveWidget(AddWidget(d, kind, title), NewWidgetId(|d.widgets|)) == d
  {
    var id := NewWidgetId(|d.widgets|);
    var nw := NewWidget(id, kind, title);
    Seqs.FilterConcat(KeepUnless(id), d.widgets, [nw]);
    RemoveIdempotent(d, id);
  }

  // ---- Reused ids -----------------------------------------------------------

  /** Removing an id that exactly one widget carries deletes just that widget. */
  lemma RemoveSoleCarrier(d: Dashboard, k: nat, id: string)
    requires k < |d.widgets| && d.widgets[k].id == id
    requires forall j :: 0 <= j < |d.widgets| && j != k ==> d.widgets[j].id != id
    ensures RemoveWidget(d, id).widgets == d.widgets[..k] + d.widgets[k + 1..]
  {
    var ws := d.widgets;
    var keep := KeepUnless(id);
    assert ws == ws[..k] + ([ws[k]] + ws[k + 1..]);
    Seqs.FilterConcat(keep, ws[..k], [ws[k]] + ws[k + 1..]);
    Seqs.FilterCons(keep, ws[k], ws[k + 1..]);
    Seqs.FilterUnchangedIff(keep, ws[..k]);
    Seqs.FilterUnchangedIff(keep, ws[k + 1..]);
  }

  /** `addWidget` ids are not fresh: in a store whose last widget is `widget<n>` (n widgets),
      removing any other widget and then adding one produces a second `widget<n>`, right
      after the first, and no earlier widget carries that id. */
  lemma DuplicateIdAfterRemove(d: Dashboard, k: nat, kind: string, title: string)
    requires DistinctIds(d.widgets) && k + 1 < |d.widgets|
    requires d.widgets[|d.widgets| - 1].id == NewWidgetId(|d.widgets| - 1)
    ensures var r := AddWidget(RemoveWidget(d, d.widgets[k].id), kind, title).widgets;
            && |r| == |d.widgets|
            && r[|r| - 2] == d.widgets[|d.widgets| - 1]
            && r[|r| - 1] == NewWidget(d.widgets[|d.widgets| - 1].id, kind, title)
            && forall m :: 0 <= m < |r| - 2 ==> r[m].id != r[|r| - 2].id
  {
    var ws := d.widgets;
    RemoveSoleCarrier(d, k, ws[k].id);
    var r := AddWidget(RemoveWidget(d, ws[k].id), kind, title).widgets;
    forall m | 0 <= m < |r| - 2
      ensures r[m].id != r[|r| - 2].id
    {
      if m < k { assert r[m] == ws[m]; } else { assert r[m] == ws[m + 1]; }
    }
  }

  /** The instance from the default widgets: remove `widget2`, add, and `widget5` appears twice. */
  lemma DefaultsReuseWidget5()
    ensures var r := AddWidget(RemoveWidget(InitialDashboard, "widget2"), "table", "Orders").widgets;
            && |r| == 5 && r[3] == DefaultWidgets[4] && r[4] == NewWidget("widget5", "table", "Orders")
            && forall m :: 0 <= m < 3 ==> r[m].id != "widget5"
  {
    assert Decimal.NatToString(5) == "5";
    DefaultsWellFormed();
    DuplicateIdAfterRemove(InitialDashboard, 1, "table", "Orders");
  }

  /** Widgets that share an id are toggled together and removed together. */
  lemma SharedIdActsOnBoth(d: Dashboard, i: nat, j: nat)
    requires i < |d.widgets| && j < |d.widgets| && d.widgets[i].id == d.widgets[j].id
    ensures var t := ToggleWidgetVisibility(d, d.widgets[i].id).widgets;
            t[i].visible != d.widgets[i].visible && t[j].visible != d.widgets[j].visible
    ensures var r := RemoveWidget(d, d.widgets[i].id).widgets;
            d.widgets[i] !in r && d.widgets[j] !in r
  {
  }

  /** The number after the `widget` prefix of an id of the form `widget<digits>`, else 0. */
  function Suffix(id: string): nat {
    if |id| > 6 && id[..6] == "widget" && Decimal.AllDigits(id[6..]) then Decimal.ParseDigits(id[6..]) else 0
  }

  lemma SuffixOfPrinted(m: nat)
    ensures Suffix("widget" + Decimal.NatToString(m)) == m
  {
    var s := Decimal.NatToString(m);
    assert ("widget" + s)[..6] == "widget";
    assert ("widget" + s)[6..] == s;
    Decimal.ParsePrinted(m);
  }

  /** The largest suffix among the ids of `ws`. */
  function MaxSuffix(ws: seq<Widget>): (r: nat)
    ensures forall w :: w in ws ==> Suffix(w.id) <= r
  {
    if |ws| == 0 then 0
    else
      var rest := MaxSuffix(ws[1..]);
      assert forall w :: w in ws ==> w == ws[0] || w in ws[1..];
      if Suffix(ws[0].id) > rest then Suffix(ws[0].id) else rest
  }

  /** A number no live id uses, and the length-derived one whenever that one is free of clashes. */
  function FreshNumber(ws: seq<Widget>): nat {
    (if MaxSuffix(ws) > |ws| then MaxSuffix(ws) else |ws|) + 1
  }

  /** `addWidget` with the id it evidently intends: one no live widget carries. */
  function AddWidgetFresh(d: Dashboard, kind: string, title: string): (r: Dashboard)
    ensures r.layouts == d.layouts
    ensures |r.widgets| == |d.widgets| + 1 && r.widgets[..|d.widgets|] == d.widgets
    ensures r.widgets[|d.widgets|].id !in Ids(d.widgets)
    ensures r.widgets[|d.widgets|] == NewWidget(r.widgets[|d.widgets|].id, kind, title)
  {
    var id := "widget" + Decimal.NatToString(FreshNumber(d.widgets));
    SuffixOfPrinted(FreshNumber(d.widgets));
    assert forall k :: 0 <= k < |d.widgets| ==> d.widgets[k] in d.widgets;
    d.(widgets := d.widgets + [NewWidget(id, kind, title)])
  }

  /** The corrected add keeps ids pairwise distinct. */
  lemma AddWidgetFreshKeepsIdsDistinct(d: Dashboard, kind: string, title: string)
    requires DistinctIds(d.widgets)
    ensures DistinctIds(AddWidgetFresh(d, kind, title).widgets)
  {
    var r := AddWidgetFresh(d, kind, title).widgets;
    forall j, k | 0 <= j < k < |r|
      ensures r[j].id != r[k].id
    {
      if k == |d.widgets| {
        assert r[j] == d.widgets[j];
        assert Ids(d.widgets)[j] == r[j].id;
      }
    }
  }

  /** While no id suffix exceeds the list length (no gaps from removals), the corrected add
      coincides with the original. */
  lemma AddWidgetFreshAgrees(d: Dashboard, kind: string, title: string)
    requires MaxSuffix(d.widgets) <= |d.widgets|
    ensures AddWidgetFresh(d, kind, title) == AddWidget(d, kind, title)
  {
  }

  // ---- Properties of the defaults and of reachable states -------------------

  /** The default widgets have distinct ids and respect their minimum sizes. */
  lemma DefaultsWellFormed()
    ensures DistinctIds(DefaultWidgets)
    ensures forall w :: w in DefaultWidgets ==> w.w >= w.minW && w.h >= w.minH
  {
  }
}

=== FILE: table.dfy ===
/** The customer table widget: the status badge colour and the CSV export. Lines are checked
    against a reader for the record syntax of RFC 4180 section 2. */
module Table {
  import opened Wrappers
  import opened MockData
  import Decimal

  // ---- Status badge ---------------------------------------------------------

  datatype StatusColor = Green | Gray | Yellow

  /** `getStatusColor`: green for Active, yellow for Pending, gray for Inactive and anything else. */
  function StatusColorOf(status: string): (c: StatusColor)
    ensures c == Green <==> status == "Active"
    ensures c == Yellow <==> status == "Pending"
    ensures status == "Inactive" ==> c == Gray
  {
    match status
    case "Active" => Green
    case "Inactive" => Gray
    case "Pending" => Yellow
    case _ => Gray
  }

  // ---- Joining and splitting ------------------------------------------------

  /** `parts.join(sep)`. */
  function Join(parts: seq<string>, sep: char): string
    decreases |parts|
  {
    if |parts| == 0 then "" else if |parts| == 1 then parts[0] else parts[0] + [sep] + Join(parts[1..], sep)
  }

  /** `s.split(sep)`: the pieces between separators, always at least one. */
  function Split(s: string, sep: char): (r: seq<string>)
    ensures |r| >= 1
  {
    if |s| == 0 then [""]
    else
      var rest := Split(s[1..], sep);
      if s[0] == sep then [""] + rest else [[s[0]] + rest[0]] + rest[1..]
  }

  lemma {:induction false} SplitFree(p: string, sep: char, t: string)
    requires sep !in p
    ensures Split(p + [sep] + t, sep) == [p] + Split(t, sep)
    ensures Split(p, sep) == [p]
    decreases |p|
  {
    if |p| == 0 {
      assert p + [sep] + t == [sep] + t;
      assert ([sep] + t)[1..] == t;
    } else {
      SplitFree(p[1..], sep, t);
      assert (p + [sep] + t)[1..] == p[1..] + [sep] + t;
      assert [p[0]] + p[1..] == p;
    }
  }

  /** Splitting undoes joining when no part contains the separator. */
  lemma {:induction false} SplitJoin(parts: seq<string>, sep: char)
    requires |parts| >= 1
    requires forall k :: 0 <= k < |parts| ==> sep !in parts[k]
    ensures Split(Join(parts, sep), sep) == parts
    decreases |parts|
  {
    if |parts| == 1 {
      SplitFree(parts[0], sep, "");
    } else {
      SplitJoin(parts[1..], sep);
      SplitFree(parts[0], sep, Join(parts[1..], sep));
    }
  }

  /** A character in no part, other than the separator, is not in the joined string. */
  lemma {:induction false} JoinAvoids(parts: seq<string>, sep: char, c: char)
    requires c != sep
    requires forall k :: 0 <= k < |parts| ==> c !in parts[k]
    ensures c !in Join(parts, sep)
    decreases |parts|
  {
    if |parts| > 1 {
      JoinAvoids(parts[1..], sep, c);
    }
  }

  // ---- Reading a CSV record (RFC 4180 section 2) -----------------------------

  /** After an opening quote: doubled quotes stand for one quote and a lone quote closes the
      field. Yields the field's text and what follows the closing quote. */
  function CloseQuoted(s: string): (r: Option<(string, string)>)
    ensures r.Some? ==> |r.value.1| < |s|
    decreases |s|
  {
    if |s| == 0 then None
    else if s[0] == '"' then
      if |s| >= 2 && s[1] == '"' then
        match CloseQuoted(s[2..])
        case None => None
        case Some(p) => Some(("\"" + p.0, p.1))
      else Some(("", s[1..]))
    else
      match CloseQuoted(s[1..])
      case None => None
      case Some(p) => Some(([s[0]] + p.0, p.1))
  }

  /** Length of the unquoted field at the start of `s`: everything before the first comma. */
  function FieldEnd(s: string): (n: nat)
    ensures n <= |s| && (n < |s| ==> s[n] == ',')
    ensures forall k :: 0 <= k < n ==> s[k] != ','
  {
    if |s| == 0 || s[0] == ',' then 0 else 1 + FieldEnd(s[1..])
  }

  /** A field followed by the fields read after it, if those could be read. */
  function Prepend(f: string, rest: Option<seq<string>>): Option<seq<string>> {
    match rest
    case None => None
    case Some(fs) => Some([f] + fs)
  }

  /** The fields of one CSV record, or `None` when it is malformed (a quote inside an unquoted
      field, or text after a closing quote). */
  function ParseRecord(s: string): Option<seq<string>>
    decreases |s|
  {
    if |s| > 0 && s[0] == '"' then
      match CloseQuoted(s[1..])
      case None => None
      case Some(p) =>
        if |p.1| == 0 then Some([p.0])
        else if p.1[0] != ',' then None
        else Prepend(p.0, ParseRecord(p.1[1..]))
    else
      var n := FieldEnd(s);
      if '"' in s[..n] then None
      else if n == |s| then Some([s])
      else Prepend(s[..n], ParseRecord(s[n + 1..]))
  }

  /** Reading a record that starts with the quoted field `f`. */
  lemma ParseQuotedStep(s: string, f: string, rest: string)
    requires |s| > 0 && s[0] == '"' && CloseQuoted(s[1..]) == Some((f, rest))
    ensures |rest| == 0 ==> ParseRecord(s) == Some([f])
    ensures |rest| > 0 && rest[0] == ',' ==> ParseRecord(s) == Prepend(f, ParseRecord(rest[1..]))
  {
  }

  /** Reading a record that starts with the plain field `p`. */
  lemma ParsePlainStep(p: string, rest: string)
    requires ',' !in p && '"' !in p
    ensures ParseRecord(p) == Some([p])
    ensures ParseRecord(p + [','] + rest) == Prepend(p, ParseRecord(rest))
  {
    var s := p + [','] + rest;
    assert forall k :: 0 <= k < |p| ==> s[k] == p[k];
    FieldEndAt(s, |p|);
    FieldEndAt(p, |p|);
    assert s[..|p|] == p;
    assert s[|p| + 1..] == rest;
    assert p[..|p|] == p;
    if |p| > 0 {
      assert s[0] == p[0];
    }
  }

  /** A record of plain fields (no comma, no quote) reads back field by field. */
  lemma {:induction false} ParsePlain(parts: seq<string>)
    requires |parts| >= 1
    requires forall k :: 0 <= k < |parts| ==> ',' !in parts[k] && '"' !in parts[k]
    ensures ParseRecord(Join(parts, ',')) == Some(parts)
    decreases |parts|
  {
    ParsePlainStep(parts[0], Join(parts[1..], ','));
    if |parts| == 1 {
      assert [parts[0]] == parts;
    } else {
      ParsePlain(parts[1..]);
      assert [parts[0]] + parts[1..] == parts;
    }
  }

  /** The unquoted field ends at the first comma. */
  lemma {:induction false} FieldEndAt(s: string, n: nat)
    requires n <= |s| && (n < |s| ==> s[n] == ',')
    requires forall k :: 0 <= k < n ==> s[k] != ','
    ensures FieldEnd(s) == n
    decreases n
  {
    if n > 0 {
      FieldEndAt(s[1..], n - 1);
    }
  }

  // ---- Writing fields -------------------------------------------------------

  /** `${val}`: the text of a record value (integers below 10^21 in magnitude, as the datasets hold). */
  function Display(v: Value): string {
    match v
    case Int(n) => Decimal.IntToString(n)
    case Text(s) => s
    case Bool(b) => if b then "true" else "false"
  }

  /** The export's field: the value wrapped in quotes, with embedded quotes left as they are. */
  function QuoteAsWritten(v: Value): string {
    "\"" + Display(v) + "\""
  }

  /** A field as RFC 4180 section 2 rule 7 requires: quoted, each embedded quote doubled. */
  function Escape(s: string): (r: string)
    ensures '"' !in s ==> r == s
  {
    if |s| == 0 then "" else (if s[0] == '"' then "\"\"" else [s[0]]) + Escape(s[1..])
  }

  function EscapeField(s: string): string {
    "\"" + Escape(s) + "\""
  }

  /** Reading on after a doubled quote or an ordinary character inside a quoted field. */
  lemma CloseQuotedStep(c: char, e: string, f: string, rest: string)
    requires CloseQuoted(e) == Some((f, rest))
    ensures c != '"' ==> CloseQuoted([c] + e) == Some(([c] + f, rest))
    ensures CloseQuoted("\"\"" + e) == Some(("\"" + f, rest))
  {
    assert ([c] + e)[1..] == e;
    assert ("\"\"" + e)[2..] == e;
  }

  /** An escaped text followed by the closing quote reads back as that text, up to what follows. */
  lemma {:induction false} CloseEscaped(v: string, rest: string)
    requires |rest| == 0 || rest[0] == ','
    ensures CloseQuoted(Escape(v) + "\"" + rest) == Some((v, rest))
    decreases |v|
  {
    if |v| == 0 {
      assert Escape(v) + "\"" + rest == "\"" + rest;
    } else {
      var x := Escape(v[1..]);
      var e := x + "\"" + rest;
      var h := if v[0] == '"' then "\"\"" else [v[0]];
      assert Escape(v) == h + x;
      assert Escape(v) + "\"" + rest == h + e;
      CloseEscaped(v[1..], rest);
      CloseQuotedStep(v[0], e, v[1..], rest);
      assert [v[0]] + v[1..] == v;
    }
  }

  function EscapedFields(vals: seq<string>): (fs: seq<string>)
    ensures |fs| == |vals|
  {
    seq(|vals|, k requires 0 <= k < |vals| => EscapeField(vals[k]))
  }

  /** Escaped fields read back exactly, whatever text they hold. */
  lemma {:induction false} EscapedRowRoundTrip(vals: seq<string>)
    requires |vals| >= 1
    ensures ParseRecord(Join(EscapedFields(vals), ',')) == Some(vals)
    decreases |vals|
  {
    var fs := EscapedFields(vals);
    var x := Escape(vals[0]);
    var rest := if |vals| == 1 then "" else [','] + Join(fs[1..], ',');
    assert fs[0] == "\"" + x + "\"";
    assert Join(fs, ',') == fs[0] + rest;
    var s := "\"" + (x + "\"" + rest);
    assert Join(fs, ',') == s;
    assert s[1..] == x + "\"" + rest;
    CloseEscaped(vals[0], rest);
    ParseQuotedStep(s, vals[0], rest);
    if |vals| == 1 {
      assert [vals[0]] == vals;
    } else {
      assert fs[1..] == EscapedFields(vals[1..]);
      EscapedRowRoundTrip(vals[1..]);
      assert rest[1..] == Join(fs[1..], ',');
      assert [vals[0]] + vals[1..] == vals;
    }
  }

  // ---- The export -----------------------------------------------------------

  /** The table's column headers and the record keys their accessors read. */
  const Headers: seq<string> := ["Name", "Email", "Status", "Last Order", "Total Spent"]
  const ColumnKeys: seq<string> := ["name", "email", "status", "lastOrder", "totalSpent"]

  function HeaderLine(): string {
    Join(Headers, ',')
  }

  /** One data line: every value of the record, in key order, quoted as written. */
  function RowAsWritten(r: Record): string {
    Join(seq(|r|, k requires 0 <= k < |r| => QuoteAsWritten(r[k].value)), ',')
  }

  datatype Export = Export(filename: string, csv: string)

  /** `handleExportCSV` without the download: the file name and the CSV text
      (header line, then one line per record, joined by newlines). */
  function ExportCsv(title: string, data: seq<Record>): (e: Export)
    ensures e.filename == title + ".csv"
  {
    Export(title + ".csv", Join([HeaderLine()] + seq(|data|, k requires 0 <= k < |data| => RowAsWritten(data[k])), '\n'))
  }

  /** No column title holds a comma, a quote or a line break. */
  lemma HeadersPlain()
    ensures forall k :: 0 <= k < |Headers| ==> ',' !in Headers[k] && '"' !in Headers[k] && '\n' !in Headers[k]
  {
  }

  /** The header is a single line. */
  lemma HeaderLineOneLine()
    ensures '\n' !in HeaderLine()
  {
    HeadersPlain();
    JoinAvoids(Headers, ',', '\n');
  }

  /** The header line reads back as the five column titles. */
  lemma HeaderLineFields()
    ensures ParseRecord(HeaderLine()) == Some(Headers)
  {
    HeadersPlain();
    ParsePlain(Headers);
  }

  predicate NoNewline(data: seq<Record>) {
    forall k, j :: 0 <= k < |data| && 0 <= j < |data[k]| ==> '\n' !in Display(data[k][j].value)
  }

  /** The CSV text splits into `|data| + 1` lines: the header, then one line per record
      (provided no value holds a newline). */
  lemma ExportLines(title: string, data: seq<Record>)
    requires NoNewline(data)
    ensures var lines := Split(ExportCsv(title, data).csv, '\n');
            |lines| == |data| + 1 && lines[0] == HeaderLine()
            && forall k :: 0 <= k < |data| ==> lines[k + 1] == RowAsWritten(data[k])
  {
    var rows := seq(|data|, k requires 0 <= k < |data| => RowAsWritten(data[k]));
    HeaderLineOneLine();
    forall k | 0 <= k < |data|
      ensures '\n' !in rows[k]
    {
      var r := data[k];
      var fs := seq(|r|, j requires 0 <= j < |r| => QuoteAsWritten(r[j].value));
      JoinAvoids(fs, ',', '\n');
    }
    SplitJoin([HeaderLine()] + rows, '\n');
  }

  predicate QuoteFree(r: Record) {
    forall j :: 0 <= j < |r| ==> '"' !in Display(r[j].value)
  }

  function Displays(r: Record): (ds: seq<string>)
    ensures |ds| == |r|
  {
    seq(|r|, j requires 0 <= j < |r| => Display(r[j].value))
  }

  /** A data line holds one field per record value, in key order (when no value holds a quote). */
  lemma RowFields(r: Record)
    requires |r| >= 1 && QuoteFree(r)
    ensures ParseRecord(RowAsWritten(r)) == Some(Displays(r))
  {
    assert seq(|r|, k requires 0 <= k < |r| => QuoteAsWritten(r[k].value)) == EscapedFields(Displays(r));
    EscapedRowRoundTrip(Displays(r));
  }

  /** The shape of a customer record: a non-negative id, then five texts free of quotes. */
  predicate CustomerShaped(r: Record) {
    |r| == 6 && r[0].value.Int? && r[0].value.n >= 0
    && forall j :: 1 <= j < 6 ==> r[j].value.Text? && '"' !in r[j].value.s
  }

  /** A customer line reads back as six fields: the id, then the five values the columns show. */
  lemma CustomerRowFields(r: Record)
    requires CustomerShaped(r)
    ensures ParseRecord(RowAsWritten(r)) == Some(Displays(r)) && |Displays(r)| == 6
    ensures Displays(r)[0] == Decimal.NatToString(r[0].value.n)
  {
    assert Decimal.AllDigits(Decimal.NatToString(r[0].value.n));
    RowFields(r);
  }

  /** Every customer record carries six values, the id first; the first customer's line reads
      back as six fields, while the header line carries five (`HeaderLineFields`). */
  lemma CustomerRowsHaveSixFields()
    ensures forall k :: 0 <= k < |Customers| ==> |Customers[k]| == 6 && Customers[k][0].key == "id"
    ensures var f := ParseRecord(RowAsWritten(Customers[0]));
            f.Some? && |f.value| == 6 && f.value[0] == "1" && f.value[1] == "John Doe"
    ensures |Headers| == 5
  {
    FirstCustomerShaped();
    CustomerRowFields(Customers[0]);
  }

  lemma FirstCustomerShaped()
    ensures CustomerShaped(Customers[0])
  {
  }

  /** Inside a quoted field, a quote not doubled closes the field. */
  lemma {:induction false} CloseAtQuote(a: string, t: string)
    requires '"' !in a && (|t| == 0 || t[0] != '"')
    ensures CloseQuoted(a + "\"" + t) == Some((a, t))
    decreases |a|
  {
    var s := a + "\"" + t;
    if |a| == 0 {
      assert s == "\"" + t;
      assert s[1..] == t;
    } else {
      CloseAtQuote(a[1..], t);
      assert s[1..] == a[1..] + "\"" + t;
      assert [a[0]] + a[1..] == a;
    }
  }

  /** A first value holding a quote followed by ordinary text breaks its line: the quote closes
      the field early and the text after it is not a separator. */
  lemma QuoteInsideBreaksRow(r: Record, a: string, b: string)
    requires |r| >= 1 && Display(r[0].value) == a + "\"" + b
    requires '"' !in a && |b| > 0 && b[0] != ',' && b[0] != '"'
    ensures ParseRecord(RowAsWritten(r)) == None
  {
    var fs := seq(|r|, k requires 0 <= k < |r| => QuoteAsWritten(r[k].value));
    var tail := if |fs| == 1 then "" else [','] + Join(fs[1..], ',');
    var t := b + "\"" + tail;
    assert fs[0] == "\"" + (a + "\"" + b) + "\"";
    assert Join(fs, ',') == fs[0] + tail;
    var s := "\"" + (a + "\"" + t);
    assert fs[0] + tail == s;
    assert s[1..] == a + "\"" + t;
    CloseAtQuote(a, t);
    assert t[0] == b[0];
  }

  /** The value `6" display` breaks its line as written, and reads back once escaped. */
  lemma UnescapedQuoteBreaksRow()
    ensures ParseRecord(RowAsWritten([Field("name", Text("6\" display"))])) == None
    ensures ParseRecord(Join(EscapedFields(["6\" display"]), ',')) == Some(["6\" display"])
  {
    assert "6\" display" == "6" + "\"" + " display";
    QuoteInsideBreaksRow([Field("name", Text("6\" display"))], "6", " display");
    EscapedRowRoundTrip(["6\" display"]);
  }

  // ---- The export with the evident intent ------------------------------------

  /** The text under a column: the value of the accessor's key, or nothing when it is missing. */
  function Cell(r: Record, key: string): string {
    match Get(r, key)
    case Some(v) => Display(v)
    case None => ""
  }

  function Cells(r: Record): (cs: seq<string>)
    ensures |cs| == |Headers|
  {
    seq(|ColumnKeys|, c requires 0 <= c < |ColumnKeys| => Cell(r, ColumnKeys[c]))
  }

  /** One data line matching the header: the five column values, escaped. */
  function AlignedRow(r: Record): string {
    Join(EscapedFields(Cells(r)), ',')
  }

  /** Every aligned line reads back as exactly one field per header, whatever the values hold. */
  lemma AlignedRowHasHeaderFields(r: Record)
    ensures ParseRecord(AlignedRow(r)) == Some(Cells(r))
    ensures ParseRecord(HeaderLine()) == Some(Headers) && |Cells(r)| == |Headers|
  {
    EscapedRowRoundTrip(Cells(r));
    HeaderLineFields();
  }

  /** The export with aligned, escaped lines. */
  function ExportCsvAligned(title: string, data: seq<Record>): (e: Export)
    ensures e.filename == title + ".csv"
  {
    Export(title + ".csv", Join([HeaderLine()] + seq(|data|, k requires 0 <= k < |data| => AlignedRow(data[k])), '\n'))
  }

  /** Escaping adds only quotes, so it introduces no other character. */
  lemma {:induction false} EscapeAvoids(s: string, c: char)
    requires c != '"' && c !in s
    ensures c !in Escape(s)
    decreases |s|
  {
    if |s| > 0 {
      assert s[0] in s;
      EscapeAvoids(s[1..], c);
    }
  }

  /** An aligned line holds no line break when no value of its record does. */
  lemma AlignedRowOneLine(r: Record)
    requires forall j :: 0 <= j < |r| ==> '\n' !in Display(r[j].value)
    ensures '\n' !in AlignedRow(r)
  {
    var cs := Cells(r);
    var fs := EscapedFields(cs);
    forall c | 0 <= c < |fs|
      ensures '\n' !in fs[c]
    {
      match Get(r, ColumnKeys[c])
      case None =>
      case Some(v) =>
        var j :| 0 <= j < |r| && r[j] == Field(ColumnKeys[c], v);
        assert cs[c] == Display(r[j].value);
      EscapeAvoids(cs[c], '\n');
    }
    JoinAvoids(fs, ',', '\n');
  }

  /** The corrected export splits into `|data| + 1` lines: the header, then for each record a
      line that reads back as exactly its five column values (provided no value holds a newline). */
  lemma AlignedExportLines(title: string, data: seq<Record>)
    requires NoNewline(data)
    ensures var lines := Split(ExportCsvAligned(title, data).csv, '\n');
            |lines| == |data| + 1 && lines[0] == HeaderLine()
            && forall k :: 0 <= k < |data| ==> ParseRecord(lines[k + 1]) == Some(Cells(data[k]))
  {
    var rows := seq(|data|, k requires 0 <= k < |data| => AlignedRow(data[k]));
    HeaderLineOneLine();
    forall k | 0 <= k < |data|
      ensures '\n' !in rows[k] && ParseRecord(rows[k]) == Some(Cells(data[k]))
    {
      AlignedRowOneLine(data[k]);
      AlignedRowHasHeaderFields(data[k]);
    }
    SplitJoin([HeaderLine()] + rows, '\n');
  }
}

=== FILE: wrappers.dfy ===
/** The optional value used wherever the JavaScript source reads a property that may be absent
    (`undefined`/`null`) or a lookup that may find nothing. */
module Wrappers {

  datatype Option<+T> = None | Some(value: T) {

    /** The wrapped value, or `default` when there is none. */
    function GetOr(default: T): T {
      match this
      case Some(v) => v
      case None => default
    }
  }
}
